=== FILE: README.md ===
# Room model: BSP construction, plane-polygon map and trait generation

A Dafny model of the room-acoustics room model (`room_model.h`) and of the
unit trait generator (`generate_traits.cpp`).

The room model covers the whole of `set_up_room_model`:

- the room's enabled walls become polygons;
- `build_BSP` partitions the polygons recursively into a binary space
  partitioning tree and appends every wall it creates to a pool (the
  source's `pwalls_BSP`);
- the pool walls are renumbered per parent wall (`parent_id * 1000 + k`);
- the pool is clustered into the plane-polygon map of coplanar walls;
- a copy of the pool is kept (`walls_BSP`);
- the reflectable lists of each cluster are merged into its representative;
- the tree height is recorded.

`disable_selected_walls` is modelled beside it.

The trait generator covers `unit::generate_traits`. It filters the unit
type's possible traits by "already held", required traits and excluded
traits, then gates them by `must_have_only` and, for leaders, by
availability. It adds a random candidate per round until the trait count is
reached or no candidate is left.

Modelling choices:

- Pointers to walls are handles: indices into the pool, or into the room's
  wall list for parents. The tree nodes, the plane-polygon map and the
  reflectable lists hold handles.
- The geometry kernel (the `whichSide` classification of a point against a
  plane and the `split` of a polygon by a plane) is a parameter `Kernel`.
  Each side of a split yields at most one piece, which keeps the plane and
  parent of the polygon it came from.
- `std::sort` is not stable. Where ties matter, the model allows any
  admissible order:
  - the partition choice is any candidate that `IsPartitionChoice` admits;
  - the map is built over any id-sorted handle list.
- Coordinates, normals and offsets are integers.
- The trait generator's random pick is any index in range.

Module layout:

| file | module | contents |
|---|---|---|
| `options.dfy` | `Options` | `Option` |
| `geometry.dfy` | `Geometry` | points, planes, polygons, the kernel |
| `walls.dfy` | `Walls` | the wall record, polygon conversion and wall reconstruction |
| `bsp_tree.dfy` | `BspTree` | tree, height, post-order handle list |
| `splitting_plane.dfy` | `SplittingPlane` | convexity test, tallies, r(p), partition choice, buckets |
| `bsp_builder.dfy` | `BspBuilder` | `build_BSP` |
| `harmonisation.dfy` | `Harmonisation` | the id renumbering and its uniqueness |
| `plane_polygon_map.dfy` | `PlanePolygonMap` | the clustering scan and its invariants |
| `reflectables.dfy` | `Reflectables` | aggregation of reflectables per cluster |
| `room_model.dfy` | `RoomModels` | the `RoomModel` class and its in-place operations |
| `traits.dfy` | `Traits` | the candidate filter and the `Unit` class |

## Model

| member | source | states |
|---|---|---|
| Walls.EnabledIndices | code-samples/room_model.h:347-348 | the positions of exactly the enabled walls, strictly increasing |
| Walls.ConstructPolygonSpatialModel | code-samples/room_model.h:345-357 | one polygon per enabled wall, in order, with that wall's corners, its id as parent id, and its normal and offset as plane |
| Walls.ConstructRtsWallModel | code-samples/room_model.h:360-389 | one wall per polygon, with the polygon's corners and the id `parent * 10000`; the wall is enabled and takes the parent wall's normal, doubled normal, offset, material and parent link |
| BspTree.Height | code-samples/room_model.h:391-405 | the height is 0 exactly for the empty tree and 1 for a leaf |
| BspTree.ChildIsLower | code-samples/room_model.h:399-404 | each subtree is strictly lower than its node |
| BspTree.DescendBelowHeight | code-samples/room_model.h:391-405 | every path that reaches a node is shorter than the height |
| BspTree.DeepestPath | code-samples/room_model.h:391-405 | some path reaches a node at depth height - 1, so the height is attained |
| BspTree.PresentTreeHasWalls | code-samples/room_model.h:164-168 | a tree with no empty node holds at least one wall |
| BspTree.RangeConcat | code-samples/room_model.h:275-278 | two consecutive handle ranges concatenate into one range |
| SplittingPlane.CheckConvex | code-samples/room_model.h:144-163 | the early-exit scan answers true exactly when no corner of any other polygon lies below any polygon's plane |
| SplittingPlane.Tally | code-samples/room_model.h:174-205 | the measures table is, row for row, the behind/in-front/crosses count of every polygon against every other |
| SplittingPlane.CountsPartition | code-samples/room_model.h:191-202 | every other polygon is counted in exactly one of the three columns, so the three counts sum to the number of other polygons counted |
| SplittingPlane.PlacementOf | code-samples/room_model.h:181-202 | another polygon counts as behind or crossing exactly when one of its corners lies below the plane, so a polygon that is only on the plane counts as in front; a polygon counted as behind has no corner above it |
| SplittingPlane.Measures | code-samples/room_model.h:174-205 | one row per polygon, in polygon order; row i carries wall index i, and its three counts sum to the number of other polygons |
| SplittingPlane.NoneBehindNorCrossing | code-samples/room_model.h:181-199 | a row has no behind and no crossing count exactly when no corner of another polygon lies below its plane |
| SplittingPlane.ConvexIffNothingBehind | code-samples/room_model.h:144-205 | the convexity test and the tallies agree: convex exactly when every row has zero behind and crossing counts |
| SplittingPlane.Ratio | code-samples/room_model.h:207-221 | r(p) lies in [0, 1] |
| SplittingPlane.RatioExtremes | code-samples/room_model.h:210-219 | r(p) is 0 exactly when one side is empty, and 1 exactly when both sides are equal and non-empty |
| SplittingPlane.RatioAgainstThreshold | code-samples/room_model.h:217-218 | for positive tallies, r(p) >= threshold exactly when the smaller side is at least threshold times the larger |
| SplittingPlane.SelectPartition | code-samples/room_model.h:222-247 | the chosen row meets the threshold with the fewest crossings among rows that meet it; if no row meets it, the chosen row is closest to the threshold |
| SplittingPlane.ChoosePartition | code-samples/room_model.h:174-247 | the tallies followed by the selection give a valid partition choice for the polygons |
| SplittingPlane.SortedScanIsChoice | code-samples/room_model.h:223-246 | for any sort by crossings and any sort by distance to the threshold, the first qualifying row (or else the closest row) is a valid partition choice |
| SplittingPlane.SplitPieces | code-samples/room_model.h:255-259 | every polygon except the partition polygon is split in list order; each bucket holds at most one piece per such polygon |
| SplittingPlane.SplitPiecesKeepParents | code-samples/room_model.h:255-259 | every piece keeps a parent among the room walls |
| SplittingPlane.CollectBuckets | code-samples/room_model.h:249-268 | the partition polygon heads the on-bucket, followed by the pieces on its plane; the above and below buckets are strictly smaller than the input |
| BspBuilder.GrowthChains | code-samples/room_model.h:275-278 | appending the front subtree's walls, then the back subtree's walls, then the node's walls keeps the earlier pool as a prefix, and every new wall inherits from its parent |
| BspBuilder.PostOrderOfNode | code-samples/room_model.h:275-278 | the front subtree's walls are appended first, then the back subtree's walls, then the node's own walls; so a node's handles in post-order are exactly the range appended |
| BspBuilder.TreeOfPostOrder | code-samples/room_model.h:275-278 | the node handles of a plan's tree, in post-order, are exactly the consecutive range of pool positions starting at the base |
| BspBuilder.BuildBSP | code-samples/room_model.h:138-287 | The result follows the plan the kernel and the threshold dictate (`FollowsPlan`). No polygons give no tree. A convex set gives one leaf of all its polygons. Otherwise the node splits at a valid partition choice: the front subtree is built from the above bucket, the back subtree from the below bucket, and the node keeps the partition polygon followed by the on-plane pieces. The pool keeps its earlier walls and gains one rebuilt wall per polygon the plan emits, front subtree first, then back subtree, then the node's own walls. Every node holds the handles of its own walls (`TreeOf`). No node is empty, and the height never exceeds the polygon count. |
| BspBuilder.BuildInnerNode | code-samples/room_model.h:170-287 | the same promise for a non-convex, non-empty input, whose tree is a split node |
| BspBuilder.BuildSplit | code-samples/room_model.h:261-278 | given the buckets, the subtrees follow the plan for the above and below buckets, and the node with its subtrees is grown into the pool as the tree of the split |
| Harmonisation.Harmonised | code-samples/room_model.h:82-90 | the renumbered pool: only ids change, and only those of walls whose parent is a room wall |
| Harmonisation.RankIncreases | code-samples/room_model.h:84-87 | the counter strictly increases between two walls of the same parent |
| Harmonisation.RankReached | code-samples/room_model.h:84-87 | every counter value below the final count is taken by some wall of that parent |
| Harmonisation.HarmonisedIdsOfParent | code-samples/room_model.h:82-90 | a parent's walls get ids that increase in pool order, lie in [p*1000, p*1000 + count), and cover every id in that range |
| Harmonisation.HarmonisedIdsUnique | code-samples/room_model.h:82-90 | if every pool wall has a room parent and no parent has more than 1000 pieces, the new ids are pairwise distinct |
| RoomModels.RoomModel.HarmoniseIds | code-samples/room_model.h:82-90 | the nested loops renumber the pool in place, giving exactly the harmonised pool |
| PlanePolygonMap.SameNormalAndOffset | code-samples/room_model.h:312-321 | the component-by-component test with early exit, followed by the offset test, answers true exactly when normal and offset are equal |
| PlanePolygonMap.Scan | code-samples/room_model.h:309-331 | the scan for one wall keeps the map well formed, changes no other wall, and opens at most one cluster |
| PlanePolygonMap.Seed | code-samples/room_model.h:305-306 | the first sorted handle is added as a new cluster, and only map ids change |
| PlanePolygonMap.BuildMap | code-samples/room_model.h:299-334 | seeding followed by placing every sorted wall keeps the pool size and the map well formed |
| PlanePolygonMap.ScanJoinsFirstMatch | code-samples/room_model.h:309-326 | a wall joins the first cluster whose representative has another id and the same plane |
| PlanePolygonMap.ScanWithoutMatch | code-samples/room_model.h:309-331 | without a match, the wall opens a new cluster at the end, unless the last representative carries the wall's own id |
| PlanePolygonMap.JoinKeepsInv | code-samples/room_model.h:323-326 | joining keeps the map well formed, its handles distinct, its members coplanar with their representative, and each member's map id equal to its cluster index |
| PlanePolygonMap.OpenKeepsInv | code-samples/room_model.h:328-331 | opening a cluster keeps the same invariant |
| PlanePolygonMap.Place | code-samples/room_model.h:307-333 | a disabled wall is passed over; placing one wall keeps the map well formed, changes no other wall and opens at most one cluster |
| PlanePolygonMap.PlaceAll | code-samples/room_model.h:307-333 | placing the first j sorted walls in turn keeps the map well formed and opens at most j clusters |
| PlanePolygonMap.PlaceKeepsInv | code-samples/room_model.h:307-333 | placing one wall keeps the invariant and the first-fit property, and lists an enabled wall |
| PlanePolygonMap.PlaceAllKeepsInv | code-samples/room_model.h:307-333 | placing the sorted walls one by one keeps the invariant throughout |
| PlanePolygonMap.BuildMapProperties | code-samples/room_model.h:299-340 | On a map that starts empty: only map ids change. Handles are distinct. Every member is coplanar with its representative and records its cluster index. The first sorted wall heads cluster 0. Every member comes from the list and is enabled, except that seed. |
| PlanePolygonMap.BuildMapWithUniqueIds | code-samples/room_model.h:299-340 | with unique ids, every enabled wall is clustered, each member fits no earlier cluster, and walls of different clusters never share a plane |
| PlanePolygonMap.InsertById | code-samples/room_model.h:300-304 | inserting keeps the list sorted by id and adds exactly one handle |
| PlanePolygonMap.SortById | code-samples/room_model.h:300-304 | an id-sorted permutation of any handle list exists |
| PlanePolygonMap.IncreasingNoRepeats | code-samples/room_model.h:299 | a strictly increasing handle list (the pool in order) has no repeats |
| RoomModels.RoomModel.PlaceInMap | code-samples/room_model.h:309-332 | the scan loop, including its extra round after opening a cluster, leaves the map and pool exactly as the scan specification does |
| RoomModels.RoomModel.CreatePlanePolygonMap | code-samples/room_model.h:299-340 | the handles are sorted by id into a permutation of the input, and the map and pool become the seeded and placed map over that order |
| RoomModels.RoomModel.SeedMap | code-samples/room_model.h:305-306 | the first sorted handle is appended as a new cluster, and map[0][0] gets map id 0 (the new handle only when the map was empty) |
| RoomModels.RoomModel.PlaceSorted | code-samples/room_model.h:307-333 | disabled walls are passed over and every enabled wall is placed in list order |
| Reflectables.InsertAscending | code-samples/room_model.h:119 | inserting keeps a list ascending and adds exactly one element |
| Reflectables.SortAscending | code-samples/room_model.h:119 | an ascending permutation of the gathered list |
| Reflectables.SortedUnique | code-samples/room_model.h:119-121 | a strictly ascending list with exactly the elements of its input |
| Reflectables.StrictlySortedBySet | code-samples/room_model.h:119-121 | two strictly ascending lists with the same elements are equal, so the sort-and-unique result depends only on the set of elements |
| Reflectables.GatheredHas | code-samples/room_model.h:111-116 | the gathered list holds exactly the elements of the members' lists |
| Reflectables.GatherReflectables | code-samples/room_model.h:111-116 | the nested push_back loops concatenate the members' lists in cluster order |
| Reflectables.SortAndDedup | code-samples/room_model.h:119-121 | sort, unique and resize leave each element of the input exactly once, strictly ascending |
| Reflectables.Unified | code-samples/room_model.h:110-123 | the clusters are processed in map order, and only reflectable lists change |
| Reflectables.UnifiedReflectables | code-samples/room_model.h:110-123 | when no handle appears in two clusters (`BuildMapProperties` gives this for a fresh map), each representative holds, strictly ascending, exactly the union of its members' lists and is otherwise unchanged; walls that represent no cluster are untouched |
| Reflectables.UnifiedIdempotent | code-samples/room_model.h:110-123 | when no handle appears in two clusters, merging a second time changes nothing |
| RoomModels.RoomModel.UnifyReflectables | code-samples/room_model.h:110-123 | the loop over the map updates the pool in place, giving exactly the merged pool |
| RoomModels.RoomModel.DisableSelectedWalls | code-samples/room_model.h:292-296 | Only enabled flags change. The walk completes exactly when every listed index is in range, and then a wall stays enabled exactly when it was enabled and is not listed. Otherwise the walk stops at the first index out of range, with only the earlier indices applied. |
| RoomModels.RoomModel.BuildRoomTree | code-samples/room_model.h:73-79 | the walls are appended to the room; the tree is the one `BuildBSP` builds from the polygons of the enabled walls: it follows the plan for those polygons, and the pool gains exactly the walls that plan emits |
| RoomModels.RoomModel.ClusterPool | code-samples/room_model.h:81-123 | The pool is renumbered and then clustered over a sorted permutation of all its handles. The visibility step follows, and its result is copied to `walls_BSP`. The reflectables are merged last. |
| RoomModels.RoomModel.SetUpRoomModel | code-samples/room_model.h:70-136 | the whole set-up as the composition of the steps above: the tree follows the plan for the enabled walls' polygons and the built pool holds exactly the walls that plan emits; the pool is then clustered and merged; the tree height is recorded; the map stays well formed |
| RoomModels.FreshMapClustersEveryWall | code-samples/room_model.h:82-108 | set up on an empty map with at most 1000 pieces per parent, every enabled pool wall is clustered, members are coplanar with their representative, and different clusters never share a plane |
| Traits.HeldExclusionsHas | code-samples/generate_traits.cpp:44-51 | an id is among the held exclusions exactly when some current trait excludes it |
| Traits.Candidates | code-samples/generate_traits.cpp:25-97 | no more candidates than possible traits; every candidate is possible, passes the filter and passes the gate |
| Traits.CandidatesExactly | code-samples/generate_traits.cpp:25-97 | a trait is a candidate exactly when it is possible, not held, has its requirements held, is not excluded, and passes the must-have and leader gate |
| Traits.CandidateNotHeld | code-samples/generate_traits.cpp:26-38 | no candidate is already held |
| Traits.CandidateRequirementsHeld | code-samples/generate_traits.cpp:53-68 | every trait a candidate requires is held |
| Traits.ExclusionRejects | code-samples/generate_traits.cpp:44-89 | a trait is rejected when an id in its own exclude list, or in a current trait's exclude list, is held or is its own id |
| Traits.MustHaveOnlyNoCandidates | code-samples/generate_traits.cpp:94 | with only must-have traits wanted, nothing is a candidate |
| Traits.LeaderOfferedAnyOnly | code-samples/generate_traits.cpp:91-96 | a unit that can recruit is offered only traits with availability "any" |
| Traits.AlreadyHeld | code-samples/generate_traits.cpp:27-38 | the early-exit scan answers whether the id is held |
| Traits.GatherExclusions | code-samples/generate_traits.cpp:42-51 | the trait's own exclude list, followed by those of the current traits in order |
| Traits.HasTrait | code-samples/generate_traits.cpp:56-60 | the full scan answers whether the id is held |
| Traits.CheckRequirements | code-samples/generate_traits.cpp:53-65 | true exactly when every required id is held |
| Traits.CheckExclusions | code-samples/generate_traits.cpp:70-86 | true exactly when no listed id is held and none is the trait's own id |
| Traits.CollectCandidates | code-samples/generate_traits.cpp:24-97 | one round's candidate list equals the filter specification, in the listed order |
| Traits.AddCandidate | code-samples/generate_traits.cpp:103-104 | adding a current candidate keeps every added trait a candidate at the time it was added |
| Traits.Unit.GenerateTraits | code-samples/generate_traits.cpp:10-110 | Existing traits are kept as a prefix, and each added trait was a candidate when added. Nothing is added beyond the trait count. Stopping short of the count means no candidate was left. With only must-have traits wanted nothing changes. Random traits are switched off. |

## Left out

- The geometry kernel is a parameter of the model: `whichSide` of a point against a plane, and the polygon `split` by a plane into above, on and below pieces. The model assumes at most one piece per side.
- The buckets are assumed to come out of the kernel's `List` in insertion order (`forEachItemOnList`, room_model.h:263-268). That order fixes the pool order and so the harmonised ids.
- Floating point is not modelled:
  - coordinates, normals and offsets are integers;
  - the sign-bit test of the coplanarity check can only differ on a negative zero, which integers lack;
  - the ratio r(p) and the threshold are exact reals;
  - `abs` in the distance to the threshold (room_model.h:240, `SplittingPlane.Distance`) is taken as the floating-point absolute value.
- The visibility step between clustering and merging is the function `Visible` over a parameter `reflect`, applied to all walls at once. That step is `init_wall_state`, `update_blockable_walls` and `apply_plane_polygon_map`, together with the reflectable lists they derive from the map. The same holds for the per-node `update_blockable_walls`, `init_wall_state` and `sort_blockables_by_dist` inside `build_BSP`: they only touch state outside this model.
- Memory management is not modelled: `new`, `shrink_to_fit`, and the room keeping pointers into the by-value `polygons` parameter. `walls_BSP` is a value copy of the pool.
- Debug output and logging (`write_obj`, `printBT`, `BOOST_LOG_TRIVIAL`) are not modelled.
- Wesnoth plumbing is not modelled: `config` lookups and `utils::split` (trait lists arrive as lists of ids), and the random generator (any index is allowed).
- `Traits.Unit.GenerateTraits`: the list of current traits at entry is taken to be the unit's trait modifications. The elided setup before the loop is not part of this model.
- Reflectable walls are compared by handle; the source compares them by pointer, and the sorted order follows pointer addresses.
- Integer width is not modelled: ids, counters and the products `parent_id * 1000` (room_model.h:86) and `parent_id * 10000` (room_model.h:373) are unbounded integers, so fixed-width overflow is not captured.
- `RoomModels.RoomModel.SetUpRoomModel` requires a non-empty pool after the build (some enabled wall, or walls already pooled). The source reads the first element of the sorted list without a guard (room_model.h:305-306), which is undefined on an empty list.
- Wall ids are taken to be indices into the room's wall list: `BuildRoomTree` and `SetUpRoomModel` require every enabled wall's id to be below the room's wall count once the new walls are added, since the rebuilt walls look up `walls[parent id]` (room_model.h:377-384).
- The pool is taken to list the tree's walls in the order `build_BSP` appends them.
- `PlanePolygonMap.BuildMapProperties`: holds for a map that starts empty only. On a non-empty map the seed becomes the last cluster while map id 0 goes to the old `map[0][0]`, so the seed's map id is not its cluster index.
- `Reflectables.UnifiedReflectables` and `Reflectables.UnifiedIdempotent`: both assume no handle appears in two clusters, which `BuildMapProperties` gives for a fresh map.
- `PlanePolygonMap.BuildMapWithUniqueIds` and `RoomModels.FreshMapClustersEveryWall`: both hold for a map that starts empty and for pool ids that are unique.
  - When two walls share an id, the scan skips every cluster whose representative has that id. Such a wall can stay unclustered, or the scan stops before the last cluster.
  - The model reproduces this, but the lemmas do not characterise it.
- `Harmonisation.HarmonisedIdsUnique`: with more than 1000 pieces of one parent, the ids of neighbouring parents overlap. The lemma assumes at most 1000 pieces per parent; the source does not check this.

=== FILE: bsp_builder.dfy ===
/**
  build_BSP: the recursive construction of the BSP tree over the kernel's
  polygons, filling the shared new-walls accumulator (the pool) as it goes.
*/
module BspBuilder {
  import opened Options
  import opened Geometry
  import opened Walls
  import opened BspTree
  import opened SplittingPlane

  /** Every wall of the pool from position lo on is enabled and oriented like its parent wall. */
  predicate InheritFrom(walls: seq<Wall>, pool: seq<Wall>, lo: nat) {
    forall h :: lo <= h < |pool| ==> InheritsParent(walls, pool[h])
  }

  /** Growing the pool by two subtrees and then by the node's own walls keeps the prefix and the inheritance. */
  lemma GrowthChains(walls: seq<Wall>, pool0: seq<Wall>, pool1: seq<Wall>, pool2: seq<Wall>, own: seq<Wall>)
    requires |pool0| <= |pool1| <= |pool2|
    requires pool1[..|pool0|] == pool0 && pool2[..|pool1|] == pool1
    requires InheritFrom(walls, pool1, |pool0|) && InheritFrom(walls, pool2, |pool1|)
    requires forall k :: 0 <= k < |own| ==> InheritsParent(walls, own[k])
    ensures (pool2 + own)[..|pool0|] == pool0
    ensures InheritFrom(walls, pool2 + own, |pool0|)
  {
    var pool3 := pool2 + own;
    assert pool3[..|pool2|] == pool2;
    forall h | |pool0| <= h < |pool3| ensures InheritsParent(walls, pool3[h]) {
      if h < |pool1| {
        assert pool3[h] == pool2[h] == pool1[h];
      } else if h < |pool2| {
        assert pool3[h] == pool2[h];
      } else {
        assert pool3[h] == own[h - |pool2|];
      }
    }
  }

  /** An inner node whose children cover consecutive pool ranges and whose own walls follow them covers their union. */
  lemma PostOrderOfNode(ws: seq<nat>, front: Option<BSPNode>, back: Option<BSPNode>, a: nat, b: nat, c: nat, d: nat)
    requires a <= b <= c <= d
    requires PostOrder(front) == Range(a, b) && PostOrder(back) == Range(b, c) && ws == Range(c, d)
    ensures PostOrder(Some(Node(ws, front, back))) == Range(a, d)
  {
    RangeConcat(a, b, c);
    RangeConcat(a, c, d);
  }

  /** What every subtree construction guarantees about the tree and the accumulator it grows. */
  predicate GrowsTree(walls: seq<Wall>, polys: seq<Polygon>, node: Option<BSPNode>, newWalls: seq<Wall>, newWalls': seq<Wall>) {
    // the accumulator only grows, and exactly by the walls of the tree, in post-order
    && |newWalls'| >= |newWalls| && newWalls'[..|newWalls|] == newWalls
    && PostOrder(node) == Range(|newWalls|, |newWalls'|)
    // no polygons, no node; otherwise no node of the tree is empty
    && (node.None? <==> polys == [])
    && NoEmptyNode(node)
    // every created wall is enabled and oriented like its parent wall
    && InheritFrom(walls, newWalls', |newWalls|)
    // every split removes the partition polygon, so the tree is no taller than the polygon count
    && Height(node) <= |polys|
  }

  /* ---------------- The tree build_BSP builds ---------------- */

  /**
    The polygon tree of one run of build_BSP, the decisions it takes laid
    out: nothing for no polygons, a convex leaf's polygons, or a split at
    partition polygon c with the polygons its node keeps (the partition
    polygon, then the pieces on its plane) and the trees built from the
    polygons above (front) and below (back) that plane.
  */
  datatype PolyTree = NoPolygons | ConvexLeaf(polys: seq<Polygon>) | SplitAt(c: nat, on: seq<Polygon>, front: PolyTree, back: PolyTree)

  /** The above, on-plane and below buckets of a split at polys[c]. */
  function BucketsAt(polys: seq<Polygon>, kernel: Kernel, c: nat): Buckets
    requires c < |polys|
  {
    SplitPieces(polys, c, polys[c].plane, kernel.split, |polys|)
  }

  /**
    t is a polygon tree build_BSP may build for polys: it stops exactly on
    an empty or convex set, and otherwise splits at a valid partition
    choice, keeps the partition polygon and the pieces on its plane, and
    goes on with the pieces above (front) and below (back) that plane.
  */
  ghost predicate FollowsPlan(polys: seq<Polygon>, threshold: real, kernel: Kernel, t: PolyTree)
    decreases t, 1
  {
    match t
    case NoPolygons => polys == []
    case ConvexLeaf(ps) => polys != [] && IsConvex(polys, kernel.sideOf) && ps == polys
    case SplitAt(c, on, front, back) => SplitFollowsPlan(polys, threshold, kernel, c, on, front, back)
  }

  /**
    A split at polys[c] is a step build_BSP may take: polys is not convex,
    c is a valid partition choice, the node keeps polys[c] followed by the
    pieces on its plane, and the subtrees follow the plan for the pieces
    above and below it.
  */
  ghost predicate SplitFollowsPlan(polys: seq<Polygon>, threshold: real, kernel: Kernel, c: nat, on: seq<Polygon>,
                                   front: PolyTree, back: PolyTree)
    decreases SplitAt(c, on, front, back), 0
  {
    && polys != [] && !IsConvex(polys, kernel.sideOf)
    && c < |polys| && IsPartitionChoice(Measures(polys, kernel.sideOf), threshold, c)
    && on == [polys[c]] + BucketsAt(polys, kernel, c).on
    && FollowsPlan(BucketsAt(polys, kernel, c).above, threshold, kernel, front)
    && FollowsPlan(BucketsAt(polys, kernel, c).below, threshold, kernel, back)
  }

  /**
    The polygons whose rebuilt walls a run appends to the pool, in the order
    it appends them: a leaf's polygons; for a split, the front subtree's,
    then the back subtree's, then the node's own.
  */
  function Emitted(t: PolyTree): seq<Polygon> {
    match t
    case NoPolygons => []
    case ConvexLeaf(ps) => ps
    case SplitAt(_, on, front, back) => Emitted(front) + Emitted(back) + on
  }

  /**
    The wall tree of a run whose first wall goes to pool position base:
    its nodes hold the pool positions of their walls, a node's front
    subtree is the tree of the pieces above the partition plane and its
    back subtree that of the pieces below.
  */
  function TreeOf(t: PolyTree, base: nat): Option<BSPNode> {
    match t
    case NoPolygons => None
    case ConvexLeaf(ps) => Some(Leaf(Range(base, base + |ps|)))
    case SplitAt(_, on, front, back) =>
      var own := base + |Emitted(front)| + |Emitted(back)|;
      Some(Node(Range(own, own + |on|), TreeOf(front, base), TreeOf(back, base + |Emitted(front)|)))
  }

  /** The tree of a run refers, in post-order, to exactly the pool positions its walls were appended at. */
  lemma {:induction false} TreeOfPostOrder(t: PolyTree, base: nat)
    ensures PostOrder(TreeOf(t, base)) == Range(base, base + |Emitted(t)|)
  {
    match t
    case NoPolygons =>
    case ConvexLeaf(_) =>
    case SplitAt(_, on, front, back) =>
      var nf, nb := |Emitted(front)|, |Emitted(back)|;
      TreeOfPostOrder(front, base);
      TreeOfPostOrder(back, base + nf);
      PostOrderOfNode(Range(base + nf + nb, base + nf + nb + |on|), TreeOf(front, base), TreeOf(back, base + nf),
                      base, base + nf, base + nf + nb, base + nf + nb + |on|);
  }

  /** pool' is pool followed by one rebuilt wall per polygon of ps, in order. */
  predicate Appends(walls: seq<Wall>, pool: seq<Wall>, pool': seq<Wall>, ps: seq<Polygon>) {
    && |pool'| == |pool| + |ps| && pool'[..|pool|] == pool
    && forall k :: 0 <= k < |ps| ==> RebuiltFrom(walls, ps[k], pool'[|pool| + k])
  }

  /**
    What build_BSP over polys builds, beyond GrowsTree: the tree of a
    partition plan the kernel and threshold dictate, with the pool gaining
    exactly the walls that plan emits.
  */
  ghost predicate BuiltAlong(walls: seq<Wall>, polys: seq<Polygon>, threshold: real, kernel: Kernel,
                             node: Option<BSPNode>, pool: seq<Wall>, pool': seq<Wall>, plan: PolyTree) {
    FollowsPlan(polys, threshold, kernel, plan) && GrownAs(walls, node, pool, pool', plan)
  }

  /** The tree is the tree of plan over the pool, and the pool gains exactly the walls plan emits. */
  predicate GrownAs(walls: seq<Wall>, node: Option<BSPNode>, pool: seq<Wall>, pool': seq<Wall>, plan: PolyTree) {
    node == TreeOf(plan, |pool|) && Appends(walls, pool, pool', Emitted(plan))
  }

  /** Two appends in a row append the concatenation. */
  lemma AppendsChain(walls: seq<Wall>, pool0: seq<Wall>, pool1: seq<Wall>, pool2: seq<Wall>, ps1: seq<Polygon>, ps2: seq<Polygon>)
    requires Appends(walls, pool0, pool1, ps1) && Appends(walls, pool1, pool2, ps2)
    ensures Appends(walls, pool0, pool2, ps1 + ps2)
  {
    assert pool2[..|pool0|] == pool1[..|pool0|];
    forall k | 0 <= k < |ps1 + ps2| ensures RebuiltFrom(walls, (ps1 + ps2)[k], pool2[|pool0| + k]) {
      if k < |ps1| {
        assert pool2[|pool0| + k] == pool1[|pool0| + k];
      } else {
        assert (ps1 + ps2)[k] == ps2[k - |ps1|];
      }
    }
  }

  /**
    build_BSP: builds the subtree for polys and appends every wall it
    creates to the accumulator; the tree refers to those walls by their pool
    positions. walls is the room's wall list that parent indices point into.
    t is the polygon tree of the run, the partition choices it made laid out.
  */
  method BuildBSP(walls: seq<Wall>, polys: seq<Polygon>, threshold: real, kernel: Kernel, newWalls: seq<Wall>)
    returns (node: Option<BSPNode>, newWalls': seq<Wall>, ghost t: PolyTree)
    requires ParentsWithin(polys, |walls|)
    decreases |polys|, 2
    ensures GrowsTree(walls, polys, node, newWalls, newWalls')
    ensures BuiltAlong(walls, polys, threshold, kernel, node, newWalls, newWalls', t)
  {
    if polys == [] {
      node, newWalls', t := None, newWalls, NoPolygons;
      assert newWalls'[..|newWalls|] == newWalls;
      return;
    }
    var convex := CheckConvex(polys, kernel.sideOf);
    if convex {
      var leafWalls := ConstructRtsWallModel(walls, polys);
      node := Some(Leaf(Range(|newWalls|, |newWalls| + |leafWalls|)));
      newWalls' := newWalls + leafWalls;
      t := ConvexLeaf(polys);
      assert newWalls'[..|newWalls|] == newWalls;
      assert forall k :: 0 <= k < |polys| ==> newWalls'[|newWalls| + k] == leafWalls[k];
    } else {
      node, newWalls', t := BuildInnerNode(walls, polys, threshold, kernel, newWalls);
    }
  }

  /**
    The split step of build_BSP: tally the candidates, choose the partition
    plane, sort the other polygons into buckets, then build the subtrees
    and the node.
  */
  method BuildInnerNode(walls: seq<Wall>, polys: seq<Polygon>, threshold: real, kernel: Kernel, newWalls: seq<Wall>)
    returns (node: Option<BSPNode>, newWalls': seq<Wall>, ghost t: PolyTree)
    requires ParentsWithin(polys, |walls|)
    requires polys != [] && !IsConvex(polys, kernel.sideOf)
    decreases |polys|, 1
    ensures GrowsTree(walls, polys, node, newWalls, newWalls')
    ensures t.SplitAt? && BuiltAlong(walls, polys, threshold, kernel, node, newWalls, newWalls', t)
  {
    var wallId := ChoosePartition(polys, kernel.sideOf, threshold);
    var above, on, below := CollectBuckets(polys, wallId, kernel.split, |walls|);
    ghost var frontTree, backTree;
    node, newWalls', frontTree, backTree := BuildSplit(walls, polys, threshold, kernel, wallId, above, on, below, newWalls);
    t := SplitAt(wallId, on, frontTree, backTree);
    assert SplitFollowsPlan(polys, threshold, kernel, wallId, on, frontTree, backTree);
  }

  /**
    The rest of the split step at partition polygon polys[c]: rebuild the
    on-plane walls, build the front subtree from the polygons above and the
    back subtree from those below, then append the on-plane walls.
  */
  method BuildSplit(walls: seq<Wall>, polys: seq<Polygon>, threshold: real, kernel: Kernel, c: nat,
                    above: seq<Polygon>, on: seq<Polygon>, below: seq<Polygon>, newWalls: seq<Wall>)
    returns (node: Option<BSPNode>, newWalls': seq<Wall>, ghost frontTree: PolyTree, ghost backTree: PolyTree)
    requires polys != [] && |above| < |polys| && |below| < |polys| && on != []
    requires ParentsWithin(above, |walls|) && ParentsWithin(on, |walls|) && ParentsWithin(below, |walls|)
    decreases |polys|, 0
    ensures FollowsPlan(above, threshold, kernel, frontTree) && FollowsPlan(below, threshold, kernel, backTree)
    ensures GrowsTree(walls, polys, node, newWalls, newWalls')
    ensures GrownAs(walls, node, newWalls, newWalls', SplitAt(c, on, frontTree, backTree))
  {
    var sortedWalls := ConstructRtsWallModel(walls, on);
    var front, acc1, back, acc2;
    front, acc1, frontTree := BuildBSP(walls, above, threshold, kernel, newWalls);
    back, acc2, backTree := BuildBSP(walls, below, threshold, kernel, acc1);
    node := Some(Node(Range(|acc2|, |acc2| + |sortedWalls|), front, back));
    newWalls' := acc2 + sortedWalls;
    SplitGrows(walls, polys, above, below, front, back, newWalls, acc1, acc2, sortedWalls);
    SplitTreeOf(c, on, frontTree, backTree, |newWalls|, |acc1|, |acc2|, |sortedWalls|);
    SplitEmits(walls, c, on, frontTree, backTree, newWalls, acc1, acc2, sortedWalls);
  }

  /** A split node over two grown subtrees, its own walls appended last, grows the tree for polys. */
  lemma SplitGrows(walls: seq<Wall>, polys: seq<Polygon>, above: seq<Polygon>, below: seq<Polygon>,
                   front: Option<BSPNode>, back: Option<BSPNode>,
                   pool: seq<Wall>, acc1: seq<Wall>, acc2: seq<Wall>, own: seq<Wall>)
    requires polys != [] && |above| < |polys| && |below| < |polys| && own != []
    requires GrowsTree(walls, above, front, pool, acc1) && GrowsTree(walls, below, back, acc1, acc2)
    requires forall k :: 0 <= k < |own| ==> InheritsParent(walls, own[k])
    ensures GrowsTree(walls, polys, Some(Node(Range(|acc2|, |acc2| + |own|), front, back)), pool, acc2 + own)
  {
    PostOrderOfNode(Range(|acc2|, |acc2| + |own|), front, back, |pool|, |acc1|, |acc2|, |acc2| + |own|);
    GrowthChains(walls, pool, acc1, acc2, own);
  }


  /** The wall tree of a split, with its subtrees' walls ending at pool positions mid and own. */
  lemma SplitTreeOf(c: nat, on: seq<Polygon>, frontTree: PolyTree, backTree: PolyTree, base: nat, mid: nat, own: nat, n: nat)
    requires mid == base + |Emitted(frontTree)| && own == mid + |Emitted(backTree)| && n == |on|
    ensures TreeOf(SplitAt(c, on, frontTree, backTree), base)
         == Some(Node(Range(own, own + n), TreeOf(frontTree, base), TreeOf(backTree, mid)))
  {
  }

  /** The pool grows by a split's polygons when it grows by its subtrees' and then by its own walls. */
  lemma SplitEmits(walls: seq<Wall>, c: nat, on: seq<Polygon>, frontTree: PolyTree, backTree: PolyTree,
                   pool: seq<Wall>, acc1: seq<Wall>, acc2: seq<Wall>, own: seq<Wall>)
    requires Appends(walls, pool, acc1, Emitted(frontTree)) && Appends(walls, acc1, acc2, Emitted(backTree))
    requires |own| == |on| && forall k :: 0 <= k < |on| ==> RebuiltFrom(walls, on[k], own[k])
    ensures Appends(walls, pool, acc2 + own, Emitted(SplitAt(c, on, frontTree, backTree)))
  {
    var pool' := acc2 + own;
    assert Appends(walls, acc2, pool', on) by {
      assert pool'[..|acc2|] == acc2;
      assert forall k :: 0 <= k < |on| ==> pool'[|acc2| + k] == own[k];
    }
    AppendsChain(walls, pool, acc1, acc2, Emitted(frontTree), Emitted(backTree));
    AppendsChain(walls, pool, acc2, pool', Emitted(frontTree) + Emitted(backTree), on);
  }
}

=== FILE: bsp_tree.dfy ===
/**
  The BSP tree (BSPNode) and its height (traverseTree). A node holds
  handles of its walls in the wall pool; an absent node (nullptr) is None.
*/
module BspTree {
  import opened Options

  /**
    A leaf holds a convex set of walls and has no children; an inner node
    holds the walls on its partition plane and the optional front (above)
    and back (below) subtrees.
  */
  datatype BSPNode =
    | Leaf(walls: seq<nat>)
    | Node(walls: seq<nat>, front: Option<BSPNode>, back: Option<BSPNode>)

  /** traverseTree: 0 for an absent node, else one more than the taller child. */
  function Height(t: Option<BSPNode>): (h: nat)
    ensures h == 0 <==> t.None?
    ensures t.Some? && t.value.Leaf? ==> h == 1
  {
    match t
    case None => 0
    case Some(Leaf(_)) => 1
    case Some(Node(_, front, back)) =>
      var frontHeight := Height(front);
      var backHeight := Height(back);
      if frontHeight >= backHeight then frontHeight + 1 else backHeight + 1
  }

  /** The child in one direction (true = front); a leaf's children are absent. */
  function Child(n: BSPNode, toFront: bool): Option<BSPNode> {
    match n
    case Leaf(_) => None
    case Node(_, front, back) => if toFront then front else back
  }

  /** The subtree reached from t by following a path of directions. */
  function Descend(t: Option<BSPNode>, path: seq<bool>): Option<BSPNode>
    decreases |path|
  {
    if path == [] || t.None? then (if path == [] then t else None)
    else Descend(Child(t.value, path[0]), path[1..])
  }

  lemma ChildIsLower(n: BSPNode, toFront: bool)
    ensures Height(Child(n, toFront)) < Height(Some(n))
  {
  }

  /** Every node lies fewer than Height levels below the root. */
  lemma {:induction false} DescendBelowHeight(t: Option<BSPNode>, path: seq<bool>)
    requires Descend(t, path).Some?
    ensures |path| < Height(t)
  {
    if path != [] {
      ChildIsLower(t.value, path[0]);
      DescendBelowHeight(Child(t.value, path[0]), path[1..]);
    }
  }

  /** Some node lies exactly Height - 1 levels below the root: Height is the longest root-to-node path. */
  lemma {:induction false} DeepestPath(t: Option<BSPNode>) returns (path: seq<bool>)
    requires t.Some?
    ensures Descend(t, path).Some? && |path| + 1 == Height(t)
  {
    match t.value
    case Leaf(_) =>
      path := [];
    case Node(_, front, back) =>
      if front.None? && back.None? {
        path := [];
      } else if Height(front) >= Height(back) {
        var rest := DeepestPath(front);
        path := [true] + rest;
        assert path[1..] == rest;
      } else {
        var rest := DeepestPath(back);
        path := [false] + rest;
        assert path[1..] == rest;
      }
  }

  /** The wall handles of a tree, children before parent (front, back, own walls). */
  function PostOrder(t: Option<BSPNode>): seq<nat> {
    match t
    case None => []
    case Some(Leaf(ws)) => ws
    case Some(Node(ws, front, back)) => PostOrder(front) + PostOrder(back) + ws
  }

  /** No present node holds an empty wall list. */
  predicate NoEmptyNode(t: Option<BSPNode>) {
    match t
    case None => true
    case Some(Leaf(ws)) => ws != []
    case Some(Node(ws, front, back)) => ws != [] && NoEmptyNode(front) && NoEmptyNode(back)
  }

  /** A present tree without empty nodes holds at least one wall. */
  lemma PresentTreeHasWalls(t: Option<BSPNode>)
    requires t.Some? && NoEmptyNode(t)
    ensures |PostOrder(t)| > 0
  {
  }

  /** The handles lo, lo + 1, ..., hi - 1. */
  function Range(lo: nat, hi: nat): (r: seq<nat>)
    requires lo <= hi
  {
    seq(hi - lo, k requires 0 <= k < hi - lo => lo + k)
  }

  lemma RangeConcat(a: nat, b: nat, c: nat)
    requires a <= b <= c
    ensures Range(a, b) + Range(b, c) == Range(a, c)
  {
    assert forall k :: 0 <= k < c - a ==> (Range(a, b) + Range(b, c))[k] == a + k;
  }
}

=== FILE: geometry.dfy ===
/**
  The geometry kernel the BSP builder relies on (the Graphics Gems
  "spatial-partitioning" polygon code), reduced to what the builder uses:
  the plane of a polygon, the side of that plane a point lies on, and the
  clipping of a polygon against a plane. Both kernel operations are
  parameters: the builder's contracts hold for every kernel and describe
  the tree it builds in terms of the kernel's answers; nothing is proved
  about the geometry of the answers themselves.
*/
module Geometry {
  import opened Options

  /** Result of Plane::whichSide. */
  datatype Side = Above | On | Below

  /** A normal vector. Coordinates are exact values (no floating point). */
  datatype Vec3 = Vec3(x: int, y: int, z: int)

  datatype Point = Point(x: int, y: int, z: int)

  /** The supporting plane of a polygon: its normal and its offset d. */
  datatype Plane = Plane(normal: Vec3, d: int)

  /**
    A PolygonSpatial: its boundary points in edge order starting at the
    first directed edge, the index of the room wall it was cut from
    (m_parentID), and its supporting plane.
  */
  datatype Polygon = Polygon(points: seq<Point>, parentId: nat, plane: Plane)

  /**
    What split() appends for one convex polygon clipped against a plane:
    at most one piece strictly above, one lying on the plane and one
    strictly below, each given by its boundary points.
  */
  datatype Pieces = Pieces(above: Option<seq<Point>>, on: Option<seq<Point>>, below: Option<seq<Point>>)

  /** The two kernel operations the builder calls. */
  datatype Kernel = Kernel(sideOf: (Plane, Point) -> Side, split: (Polygon, Plane) -> Pieces)

  /**
    A piece cut from polygon p: the kernel keeps the parent index and the
    supporting plane of the polygon it cut.
  */
  function Piece(p: Polygon, points: seq<Point>): Polygon {
    Polygon(points, p.parentId, p.plane)
  }

  /** The polygons one optional piece contributes to a bucket. */
  function PieceList(p: Polygon, piece: Option<seq<Point>>): seq<Polygon> {
    if piece.Some? then [Piece(p, piece.value)] else []
  }

  /** Every polygon names a wall of a room with nWalls walls as its parent. */
  predicate ParentsWithin(polys: seq<Polygon>, nWalls: nat) {
    forall i :: 0 <= i < |polys| ==> polys[i].parentId < nWalls
  }
}

=== FILE: harmonisation.dfy ===
/**
  Identifier harmonisation of set_up_room_model: after the tree is built,
  every pool wall whose parent index is below the number of room walls
  gets the id parent * 1000 + k, k counting that parent's walls in pool
  order.
*/
module Harmonisation {
  import opened Walls

  /** How many walls before pool position j have parent p. */
  function ParentRank(pool: seq<Wall>, p: nat, j: nat): nat
    requires j <= |pool|
  {
    if j == 0 then 0
    else ParentRank(pool, p, j - 1) + (if pool[j - 1].parentId == p then 1 else 0)
  }

  /** The wall at pool position j once the ids are harmonised for a room of nWalls walls. */
  function HarmonisedWall(pool: seq<Wall>, nWalls: nat, j: nat): Wall
    requires j < |pool|
  {
    var w := pool[j];
    if w.parentId < nWalls then w.(id := w.parentId * 1000 + ParentRank(pool, w.parentId, j)) else w
  }

  /**
    The pool once the ids are harmonised: only ids change, and only those
    of walls whose parent is a room wall.
  */
  function Harmonised(pool: seq<Wall>, nWalls: nat): (r: seq<Wall>)
    ensures |r| == |pool|
    ensures forall j :: 0 <= j < |pool| ==> r[j] == pool[j].(id := r[j].id)
    ensures forall j :: 0 <= j < |pool| && pool[j].parentId >= nWalls ==> r[j] == pool[j]
  {
    seq(|pool|, j requires 0 <= j < |pool| => HarmonisedWall(pool, nWalls, j))
  }

  lemma {:induction false} RankIncreases(pool: seq<Wall>, p: nat, j1: nat, j2: nat)
    requires j1 < j2 <= |pool| && pool[j1].parentId == p
    ensures ParentRank(pool, p, j1) < ParentRank(pool, p, j2)
  {
    if j2 > j1 + 1 {
      RankIncreases(pool, p, j1, j2 - 1);
    }
  }

  lemma {:induction false} RankReached(pool: seq<Wall>, p: nat, k: nat, upto: nat)
    requires upto <= |pool| && k < ParentRank(pool, p, upto)
    ensures exists j :: 0 <= j < upto && pool[j].parentId == p && ParentRank(pool, p, j) == k
  {
    if k < ParentRank(pool, p, upto - 1) {
      RankReached(pool, p, k, upto - 1);
    } else {
      assert pool[upto - 1].parentId == p && ParentRank(pool, p, upto - 1) == k;
    }
  }

  /**
    The pool part-way through harmonisation: parents below i are done, and
    of parent i the walls before position j.
  */
  ghost predicate HarmonisedUpTo(pool0: seq<Wall>, nWalls: nat, pool: seq<Wall>, i: nat, j: nat) {
    && |pool| == |pool0|
    && forall k :: 0 <= k < |pool| ==>
         pool[k] == if pool0[k].parentId < i || (pool0[k].parentId == i && k < j)
                    then HarmonisedWall(pool0, nWalls, k) else pool0[k]
  }

  /** One step of the inner loop: wall j is renumbered when its parent is i. */
  lemma HarmoniseStep(pool0: seq<Wall>, nWalls: nat, pool: seq<Wall>, i: nat, j: nat, counter: nat)
    requires i < nWalls && j < |pool0| && HarmonisedUpTo(pool0, nWalls, pool, i, j)
    requires counter == ParentRank(pool0, i, j)
    ensures pool[j].parentId == pool0[j].parentId
    ensures pool[j].parentId == i ==>
      HarmonisedUpTo(pool0, nWalls, pool[j := pool[j].(id := pool[j].parentId * 1000 + counter)], i, j + 1)
    ensures pool[j].parentId != i ==> HarmonisedUpTo(pool0, nWalls, pool, i, j + 1)
  {
    assert pool0[j].parentId >= i ==> pool[j] == pool0[j];
    var next := if pool[j].parentId == i then pool[j := pool[j].(id := pool[j].parentId * 1000 + counter)] else pool;
    forall k | 0 <= k < |next|
      ensures next[k] == if pool0[k].parentId < i || (pool0[k].parentId == i && k < j + 1)
                         then HarmonisedWall(pool0, nWalls, k) else pool0[k]
    {
      if k != j {
        assert next[k] == pool[k];
      }
    }
  }

  /** Finishing parent i is starting parent i + 1; finishing every parent is the whole renumbering. */
  lemma HarmoniseNext(pool0: seq<Wall>, nWalls: nat, pool: seq<Wall>, i: nat)
    requires HarmonisedUpTo(pool0, nWalls, pool, i, |pool0|)
    ensures HarmonisedUpTo(pool0, nWalls, pool, i + 1, 0)
    ensures i == nWalls ==> pool == Harmonised(pool0, nWalls)
  {
  }

  /** Some wall of parent p carries the given id once harmonised. */
  predicate IdUsed(pool: seq<Wall>, nWalls: nat, p: nat, id: nat) {
    exists j :: 0 <= j < |pool| && pool[j].parentId == p && Harmonised(pool, nWalls)[j].id == id
  }

  /**
    For a parent p below nWalls, its walls get the ids p * 1000 + 0, 1, ...,
    count - 1: increasing in pool order (so no repeats), within that range,
    and each of them used.
  */
  lemma HarmonisedIdsOfParent(pool: seq<Wall>, nWalls: nat, p: nat)
    requires p < nWalls
    ensures forall j1, j2 :: 0 <= j1 < j2 < |pool| && pool[j1].parentId == p && pool[j2].parentId == p ==>
      Harmonised(pool, nWalls)[j1].id < Harmonised(pool, nWalls)[j2].id
    ensures forall j :: 0 <= j < |pool| && pool[j].parentId == p ==>
      p * 1000 <= Harmonised(pool, nWalls)[j].id < p * 1000 + ParentRank(pool, p, |pool|)
    ensures forall id: nat :: p * 1000 <= id < p * 1000 + ParentRank(pool, p, |pool|) ==> IdUsed(pool, nWalls, p, id)
  {
    var h := Harmonised(pool, nWalls);
    var count := ParentRank(pool, p, |pool|);
    forall j1, j2 | 0 <= j1 < j2 < |pool| && pool[j1].parentId == p && pool[j2].parentId == p
      ensures h[j1].id < h[j2].id
    {
      RankIncreases(pool, p, j1, j2);
    }
    forall j | 0 <= j < |pool| && pool[j].parentId == p
      ensures p * 1000 <= h[j].id < p * 1000 + count
    {
      RankIncreases(pool, p, j, |pool|);
    }
    forall id: nat | p * 1000 <= id < p * 1000 + count
      ensures IdUsed(pool, nWalls, p, id)
    {
      RankReached(pool, p, id - p * 1000, |pool|);
      var j :| 0 <= j < |pool| && pool[j].parentId == p && ParentRank(pool, p, j) == id - p * 1000;
      assert h[j].id == id;
    }
  }

  /**
    When every pool wall has a parent below nWalls and no parent has more
    than 1000 walls, harmonised ids are unique across the whole pool.
  */
  lemma HarmonisedIdsUnique(pool: seq<Wall>, nWalls: nat)
    requires forall j :: 0 <= j < |pool| ==> pool[j].parentId < nWalls
    requires forall p :: ParentRank(pool, p, |pool|) <= 1000
    ensures var h := Harmonised(pool, nWalls);
      forall j1, j2 :: 0 <= j1 < |pool| && 0 <= j2 < |pool| && j1 != j2 ==> h[j1].id != h[j2].id
  {
    var h := Harmonised(pool, nWalls);
    forall j1, j2 | 0 <= j1 < |pool| && 0 <= j2 < |pool| && j1 != j2
      ensures h[j1].id != h[j2].id
    {
      var p1, p2 := pool[j1].parentId, pool[j2].parentId;
      RankIncreases(pool, p1, j1, |pool|);
      RankIncreases(pool, p2, j2, |pool|);
      assert ParentRank(pool, p1, |pool|) <= 1000 && ParentRank(pool, p2, |pool|) <= 1000;
      if p1 == p2 {
        if j1 < j2 {
          RankIncreases(pool, p1, j1, j2);
        } else {
          RankIncreases(pool, p1, j2, j1);
        }
      } else if p1 < p2 {
        assert h[j1].id < p1 * 1000 + 1000 <= p2 * 1000 <= h[j2].id;
      } else {
        assert h[j2].id < p2 * 1000 + 1000 <= p1 * 1000 <= h[j1].id;
      }
    }
  }
}

=== FILE: options.dfy ===
/** The optional value used where the source passes a possibly-null pointer. */
module Options {

  datatype Option<+T> = None | Some(value: T)
}

=== FILE: plane_polygon_map.dfy ===
/**
  The plane-polygon map of create_plane_polygon_map: pool walls grouped
  into clusters of coplanar walls (exactly equal normal and offset). The
  first member of a cluster is its representative; every clustered wall
  records its cluster's index in planePolygonMapId.
*/
module PlanePolygonMap {
  import opened Geometry
  import opened Walls

  /** The pool and the cluster map together: the two things the scan updates. */
  datatype MapState = MapState(pool: seq<Wall>, clusters: seq<seq<nat>>)

  /** Every cluster has a representative and holds handles of a pool of n walls. */
  predicate WellFormedMap(n: nat, clusters: seq<seq<nat>>) {
    forall c :: 0 <= c < |clusters| ==>
      |clusters[c]| > 0 && forall m :: 0 <= m < |clusters[c]| ==> clusters[c][m] < n
  }

  predicate Handles(n: nat, hs: seq<nat>) {
    forall k :: 0 <= k < |hs| ==> hs[k] < n
  }

  /** No handle occurs twice anywhere in the map. */
  predicate DistinctHandles(clusters: seq<seq<nat>>) {
    forall c1, m1, c2, m2 ::
      (0 <= c1 < |clusters| && 0 <= m1 < |clusters[c1]| && 0 <= c2 < |clusters| && 0 <= m2 < |clusters[c2]| &&
       clusters[c1][m1] == clusters[c2][m2]) ==> c1 == c2 && m1 == m2
  }

  predicate InMap(clusters: seq<seq<nat>>, h: nat) {
    exists c, m :: 0 <= c < |clusters| && 0 <= m < |clusters[c]| && clusters[c][m] == h
  }

  /** No element of a multiset of handles occurs more than once. */
  predicate NoRepeats(hs: seq<nat>) {
    forall x :: x in hs ==> multiset(hs)[x] == 1
  }

  /** Pool walls are compared by id before any geometry. */
  predicate SortedById(pool: seq<Wall>, hs: seq<nat>)
    requires Handles(|pool|, hs)
  {
    forall a, b :: 0 <= a < b < |hs| ==> pool[hs[a]].id <= pool[hs[b]].id
  }

  function Component(v: Vec3, k: nat): int
    requires k < 3
  {
    if k == 0 then v.x else if k == 1 then v.y else v.z
  }

  /** The sign bit of a component; integers have no negative zero. */
  predicate SignBit(x: int) {
    x < 0
  }

  /**
    The coplanarity test of the scan: normals compared component by
    component (value and sign bit), then the offsets.
  */
  method SameNormalAndOffset(rep: Wall, w: Wall) returns (same: bool)
    ensures same <==> SamePlane(w, rep)
  {
    same := true;
    for k := 0 to 3
      invariant same
      invariant forall k' :: 0 <= k' < k ==> Component(rep.n, k') == Component(w.n, k')
    {
      if Component(rep.n, k) != Component(w.n, k) || SignBit(Component(w.n, k)) != SignBit(Component(rep.n, k)) {
        same := false;
        break;
      }
    }
    if w.d != rep.d {
      same := false;
    }
    if same {
      assert Component(rep.n, 0) == Component(w.n, 0) && Component(rep.n, 1) == Component(w.n, 1);
      assert Component(rep.n, 2) == Component(w.n, 2);
    }
  }

  /** Wall h passes the test against the representative of cluster c: another id, same normal and offset. */
  predicate Matches(pool: seq<Wall>, clusters: seq<seq<nat>>, h: nat, c: nat)
    requires WellFormedMap(|pool|, clusters) && h < |pool| && c < |clusters|
  {
    pool[h].id != pool[clusters[c][0]].id && SamePlane(pool[h], pool[clusters[c][0]])
  }

  /** Wall h joins cluster c. */
  function Join(s: MapState, h: nat, c: nat): MapState
    requires h < |s.pool| && c < |s.clusters|
  {
    MapState(s.pool[h := s.pool[h].(planePolygonMapId := c)], s.clusters[c := s.clusters[c] + [h]])
  }

  /** Wall h opens a new cluster at the end of the map. */
  function Open(s: MapState, h: nat): MapState
    requires h < |s.pool|
  {
    MapState(s.pool[h := s.pool[h].(planePolygonMapId := |s.clusters|)], s.clusters + [[h]])
  }

  /**
    The scan over the clusters for wall h, from cluster i on: a cluster
    whose representative has h's id is skipped; the first matching one is
    joined; at the last cluster without a match a new one is opened.
  */
  function Scan(s: MapState, h: nat, i: nat): (r: MapState)
    requires WellFormedMap(|s.pool|, s.clusters) && h < |s.pool|
    ensures |r.pool| == |s.pool| && WellFormedMap(|r.pool|, r.clusters)
    ensures forall j :: 0 <= j < |s.pool| && j != h ==> r.pool[j] == s.pool[j]
    ensures |s.clusters| <= |r.clusters| <= |s.clusters| + 1
    decreases |s.clusters| - i
  {
    if i >= |s.clusters| then s
    else if s.pool[h].id == s.pool[s.clusters[i][0]].id then Scan(s, h, i + 1)
    else if SamePlane(s.pool[h], s.pool[s.clusters[i][0]]) then Join(s, h, i)
    else if i == |s.clusters| - 1 then Open(s, h)
    else Scan(s, h, i + 1)
  }

  /** One wall of the sorted list: disabled walls are passed over. */
  function Place(s: MapState, h: nat): (r: MapState)
    requires WellFormedMap(|s.pool|, s.clusters) && h < |s.pool|
    ensures |r.pool| == |s.pool| && WellFormedMap(|r.pool|, r.clusters)
    ensures forall j :: 0 <= j < |s.pool| && j != h ==> r.pool[j] == s.pool[j]
    ensures |s.clusters| <= |r.clusters| <= |s.clusters| + 1
  {
    if !s.pool[h].enabled then s else Scan(s, h, 0)
  }

  /** The first j walls of the sorted list placed in turn. */
  function PlaceAll(s: MapState, order: seq<nat>, j: nat): (r: MapState)
    requires WellFormedMap(|s.pool|, s.clusters) && Handles(|s.pool|, order) && j <= |order|
    ensures |r.pool| == |s.pool| && WellFormedMap(|r.pool|, r.clusters)
    ensures |s.clusters| <= |r.clusters| <= |s.clusters| + j
  {
    if j == 0 then s else Place(PlaceAll(s, order, j - 1), order[j - 1])
  }

  /** The map is seeded with the first wall of the sorted list, enabled or not, and map[0][0] gets map id 0. */
  function Seed(pool: seq<Wall>, clusters: seq<seq<nat>>, order: seq<nat>): (r: MapState)
    requires WellFormedMap(|pool|, clusters) && Handles(|pool|, order) && |order| > 0
    ensures |r.pool| == |pool| && WellFormedMap(|r.pool|, r.clusters)
    ensures r.clusters == clusters + [[order[0]]]
    ensures forall j :: 0 <= j < |pool| ==> r.pool[j] == pool[j].(planePolygonMapId := r.pool[j].planePolygonMapId)
  {
    var seeded := clusters + [[order[0]]];
    var first := seeded[0][0];
    MapState(pool[first := pool[first].(planePolygonMapId := 0)], seeded)
  }

  /** The whole of create_plane_polygon_map for walls already sorted by id. */
  function BuildMap(pool: seq<Wall>, clusters: seq<seq<nat>>, order: seq<nat>): (r: MapState)
    requires WellFormedMap(|pool|, clusters) && Handles(|pool|, order) && |order| > 0
    ensures |r.pool| == |pool| && WellFormedMap(|r.pool|, r.clusters)
  {
    PlaceAll(Seed(pool, clusters, order), order, |order|)
  }

  // ---------------------------------------------------------------------
  // What one scan does

  /** The scan from i joins the first cluster at or after i that matches. */
  lemma {:induction false} ScanJoinsFirstMatch(s: MapState, h: nat, i: nat, c: nat)
    requires WellFormedMap(|s.pool|, s.clusters) && h < |s.pool|
    requires i <= c < |s.clusters| && Matches(s.pool, s.clusters, h, c)
    requires forall c' :: i <= c' < c ==> !Matches(s.pool, s.clusters, h, c')
    ensures Scan(s, h, i) == Join(s, h, c)
    decreases c - i
  {
    if i < c {
      assert !Matches(s.pool, s.clusters, h, i);
      ScanJoinsFirstMatch(s, h, i + 1, c);
    }
  }

  /**
    When no cluster from i on matches, the scan opens a new cluster, unless
    the last representative carries h's own id (or nothing is left to scan),
    in which case nothing changes.
  */
  lemma {:induction false} ScanWithoutMatch(s: MapState, h: nat, i: nat)
    requires WellFormedMap(|s.pool|, s.clusters) && h < |s.pool|
    requires forall c :: i <= c < |s.clusters| ==> !Matches(s.pool, s.clusters, h, c)
    ensures Scan(s, h, i) == (if i < |s.clusters| && s.pool[h].id != s.pool[s.clusters[|s.clusters| - 1][0]].id
                              then Open(s, h) else s)
    decreases |s.clusters| - i
  {
    if i < |s.clusters| {
      assert !Matches(s.pool, s.clusters, h, i);
      ScanWithoutMatch(s, h, i + 1);
    }
  }

  // ---------------------------------------------------------------------
  // Invariants of the map

  /** Only planePolygonMapId fields differ between the two pools. */
  predicate OnlyMapIdsChanged(pool0: seq<Wall>, pool: seq<Wall>) {
    |pool| == |pool0| &&
    forall h :: 0 <= h < |pool| ==> pool[h] == pool0[h].(planePolygonMapId := pool[h].planePolygonMapId)
  }

  /** Every member equals its representative on normal and offset. */
  predicate Coplanar(pool: seq<Wall>, clusters: seq<seq<nat>>)
    requires WellFormedMap(|pool|, clusters)
  {
    forall c, m :: 0 <= c < |clusters| && 0 <= m < |clusters[c]| ==>
      SamePlane(pool[clusters[c][m]], pool[clusters[c][0]])
  }

  /** Every member records the index of its cluster. */
  predicate MapIdsMatch(pool: seq<Wall>, clusters: seq<seq<nat>>)
    requires WellFormedMap(|pool|, clusters)
  {
    forall c, m :: 0 <= c < |clusters| && 0 <= m < |clusters[c]| ==>
      pool[clusters[c][m]].planePolygonMapId == c
  }

  /** No member is coplanar with the representative of an earlier cluster. */
  predicate FirstFit(pool: seq<Wall>, clusters: seq<seq<nat>>)
    requires WellFormedMap(|pool|, clusters)
  {
    forall c, m, c' :: 0 <= c' < c < |clusters| && 0 <= m < |clusters[c]| ==>
      !SamePlane(pool[clusters[c][m]], pool[clusters[c'][0]])
  }

  predicate UniqueIds(pool: seq<Wall>) {
    forall a, b :: 0 <= a < |pool| && 0 <= b < |pool| && a != b ==> pool[a].id != pool[b].id
  }

  predicate MapInv(pool0: seq<Wall>, s: MapState) {
    && OnlyMapIdsChanged(pool0, s.pool)
    && WellFormedMap(|pool0|, s.clusters)
    && DistinctHandles(s.clusters)
    && Coplanar(pool0, s.clusters)
    && MapIdsMatch(s.pool, s.clusters)
  }

  lemma JoinKeepsInv(pool0: seq<Wall>, s: MapState, h: nat, c: nat)
    requires MapInv(pool0, s) && h < |pool0| && c < |s.clusters| && !InMap(s.clusters, h)
    requires SamePlane(pool0[h], pool0[s.clusters[c][0]])
    ensures MapInv(pool0, Join(s, h, c))
    ensures forall x :: InMap(s.clusters, x) ==> InMap(Join(s, h, c).clusters, x)
    ensures InMap(Join(s, h, c).clusters, h)
  {
    JoinKeepsShape(pool0, s, h, c);
    JoinKeepsCoplanar(pool0, s, h, c);
    JoinKeepsMapIds(pool0, s, h, c);
    JoinKeepsMembers(pool0, s, h, c);
  }

  lemma JoinKeepsShape(pool0: seq<Wall>, s: MapState, h: nat, c: nat)
    requires MapInv(pool0, s) && h < |pool0| && c < |s.clusters| && !InMap(s.clusters, h)
    ensures OnlyMapIdsChanged(pool0, Join(s, h, c).pool)
    ensures WellFormedMap(|pool0|, Join(s, h, c).clusters) && DistinctHandles(Join(s, h, c).clusters)
  {
    JoinKeepsDistinct(s.clusters, h, c);
  }

  lemma JoinKeepsDistinct(clusters: seq<seq<nat>>, h: nat, c: nat)
    requires DistinctHandles(clusters) && c < |clusters| && !InMap(clusters, h)
    ensures DistinctHandles(clusters[c := clusters[c] + [h]])
  {
    var t := clusters[c := clusters[c] + [h]];
    forall c1, m1, c2, m2 |
      0 <= c1 < |t| && 0 <= m1 < |t[c1]| && 0 <= c2 < |t| && 0 <= m2 < |t[c2]| && t[c1][m1] == t[c2][m2]
      ensures c1 == c2 && m1 == m2
    {
      var old1 := c1 != c || m1 < |clusters[c]|;
      var old2 := c2 != c || m2 < |clusters[c]|;
      if old1 {
        assert t[c1][m1] == clusters[c1][m1];
      }
      if old2 {
        assert t[c2][m2] == clusters[c2][m2];
      }
    }
  }

  lemma JoinKeepsCoplanar(pool0: seq<Wall>, s: MapState, h: nat, c: nat)
    requires MapInv(pool0, s) && h < |pool0| && c < |s.clusters| && !InMap(s.clusters, h)
    requires SamePlane(pool0[h], pool0[s.clusters[c][0]])
    requires WellFormedMap(|pool0|, Join(s, h, c).clusters)
    ensures Coplanar(pool0, Join(s, h, c).clusters)
  {
  }

  lemma JoinKeepsMapIds(pool0: seq<Wall>, s: MapState, h: nat, c: nat)
    requires MapInv(pool0, s) && h < |pool0| && c < |s.clusters| && !InMap(s.clusters, h)
    requires WellFormedMap(|pool0|, Join(s, h, c).clusters)
    ensures MapIdsMatch(Join(s, h, c).pool, Join(s, h, c).clusters)
  {
    var t := Join(s, h, c);
    forall c1, m1 | 0 <= c1 < |t.clusters| && 0 <= m1 < |t.clusters[c1]|
      ensures t.pool[t.clusters[c1][m1]].planePolygonMapId == c1
    {
      if t.clusters[c1][m1] != h {
        assert m1 < |s.clusters[c1]|;
      }
    }
  }

  lemma JoinKeepsMembers(pool0: seq<Wall>, s: MapState, h: nat, c: nat)
    requires MapInv(pool0, s) && h < |pool0| && c < |s.clusters|
    ensures forall x :: InMap(s.clusters, x) ==> InMap(Join(s, h, c).clusters, x)
    ensures InMap(Join(s, h, c).clusters, h)
  {
    var t := Join(s, h, c);
    forall x | InMap(s.clusters, x) ensures InMap(t.clusters, x) {
      var c1, m1 :| 0 <= c1 < |s.clusters| && 0 <= m1 < |s.clusters[c1]| && s.clusters[c1][m1] == x;
      assert t.clusters[c1][m1] == x;
    }
    assert t.clusters[c][|s.clusters[c]|] == h;
  }

  lemma OpenKeepsInv(pool0: seq<Wall>, s: MapState, h: nat)
    requires MapInv(pool0, s) && h < |pool0| && !InMap(s.clusters, h)
    ensures MapInv(pool0, Open(s, h))
    ensures forall x :: InMap(s.clusters, x) ==> InMap(Open(s, h).clusters, x)
    ensures InMap(Open(s, h).clusters, h)
  {
    OpenKeepsDistinct(s.clusters, h);
    OpenKeepsMapIds(pool0, s, h);
    OpenKeepsMembers(pool0, s, h);
  }

  lemma OpenKeepsDistinct(clusters: seq<seq<nat>>, h: nat)
    requires DistinctHandles(clusters) && !InMap(clusters, h)
    ensures DistinctHandles(clusters + [[h]])
  {
    var t := clusters + [[h]];
    forall c1, m1, c2, m2 |
      0 <= c1 < |t| && 0 <= m1 < |t[c1]| && 0 <= c2 < |t| && 0 <= m2 < |t[c2]| && t[c1][m1] == t[c2][m2]
      ensures c1 == c2 && m1 == m2
    {
      if c1 < |clusters| {
        assert t[c1][m1] == clusters[c1][m1];
      }
      if c2 < |clusters| {
        assert t[c2][m2] == clusters[c2][m2];
      }
    }
  }

  lemma OpenKeepsMapIds(pool0: seq<Wall>, s: MapState, h: nat)
    requires MapInv(pool0, s) && h < |pool0| && !InMap(s.clusters, h)
    ensures MapIdsMatch(Open(s, h).pool, Open(s, h).clusters)
  {
    var t := Open(s, h);
    forall c1, m1 | 0 <= c1 < |t.clusters| && 0 <= m1 < |t.clusters[c1]|
      ensures t.pool[t.clusters[c1][m1]].planePolygonMapId == c1
    {
      if c1 < |s.clusters| {
        assert t.clusters[c1][m1] == s.clusters[c1][m1] != h;
      }
    }
  }

  lemma OpenKeepsMembers(pool0: seq<Wall>, s: MapState, h: nat)
    requires MapInv(pool0, s) && h < |pool0|
    ensures forall x :: InMap(s.clusters, x) ==> InMap(Open(s, h).clusters, x)
    ensures InMap(Open(s, h).clusters, h)
  {
    var t := Open(s, h);
    forall x | InMap(s.clusters, x) ensures InMap(t.clusters, x) {
      var c1, m1 :| 0 <= c1 < |s.clusters| && 0 <= m1 < |s.clusters[c1]| && s.clusters[c1][m1] == x;
      assert t.clusters[c1][m1] == x;
    }
    assert t.clusters[|s.clusters|][0] == h;
  }

  lemma JoinKeepsFirstFit(pool0: seq<Wall>, s: MapState, h: nat, c: nat)
    requires WellFormedMap(|pool0|, s.clusters) && FirstFit(pool0, s.clusters) && h < |pool0| && c < |s.clusters|
    requires |s.pool| == |pool0|
    requires forall c' :: 0 <= c' < c ==> !SamePlane(pool0[h], pool0[s.clusters[c'][0]])
    ensures FirstFit(pool0, Join(s, h, c).clusters)
  {
  }

  lemma OpenKeepsFirstFit(pool0: seq<Wall>, s: MapState, h: nat)
    requires WellFormedMap(|pool0|, s.clusters) && FirstFit(pool0, s.clusters) && h < |pool0|
    requires |s.pool| == |pool0|
    requires forall c' :: 0 <= c' < |s.clusters| ==> !SamePlane(pool0[h], pool0[s.clusters[c'][0]])
    ensures FirstFit(pool0, Open(s, h).clusters)
  {
  }

  // ---------------------------------------------------------------------
  // Building a fresh map

  /** Finds the first cluster from i on that matches h, or |clusters| when none does. */
  lemma {:induction false} FindMatch(s: MapState, h: nat, i: nat) returns (c: nat)
    requires WellFormedMap(|s.pool|, s.clusters) && h < |s.pool| && i <= |s.clusters|
    requires forall c' :: 0 <= c' < i ==> !Matches(s.pool, s.clusters, h, c')
    ensures i <= c <= |s.clusters|
    ensures forall c' :: 0 <= c' < c ==> !Matches(s.pool, s.clusters, h, c')
    ensures c < |s.clusters| ==> Matches(s.pool, s.clusters, h, c)
    decreases |s.clusters| - i
  {
    if i == |s.clusters| || Matches(s.pool, s.clusters, h, i) {
      c := i;
    } else {
      c := FindMatch(s, h, i + 1);
    }
  }

  lemma NotEarlier(order: seq<nat>, j: nat)
    requires NoRepeats(order) && j < |order|
    ensures order[j] !in order[..j]
  {
    assert order == order[..j] + order[j..];
    assert order[j] in order[j..];
    assert multiset(order)[order[j]] == multiset(order[..j])[order[j]] + multiset(order[j..])[order[j]];
  }

  /** Every member comes from the first j sorted walls and is enabled, the seed apart. */
  predicate Listed(pool0: seq<Wall>, order: seq<nat>, j: nat, clusters: seq<seq<nat>>)
    requires Handles(|pool0|, order) && j <= |order| && |order| > 0 && WellFormedMap(|pool0|, clusters)
  {
    forall c, m :: 0 <= c < |clusters| && 0 <= m < |clusters[c]| ==>
      clusters[c][m] in order[..j] && (clusters[c][m] == order[0] || pool0[clusters[c][m]].enabled)
  }

  /** Every enabled wall among the first j sorted walls is clustered. */
  predicate Complete(pool0: seq<Wall>, order: seq<nat>, j: nat, clusters: seq<seq<nat>>)
    requires Handles(|pool0|, order) && j <= |order|
  {
    forall p :: 0 <= p < j && pool0[order[p]].enabled ==> InMap(clusters, order[p])
  }

  /** What holds once the first j (at least one) walls of the sorted list are placed into a fresh map. */
  predicate PlacedInv(pool0: seq<Wall>, order: seq<nat>, j: nat, s: MapState)
    requires Handles(|pool0|, order) && 1 <= j <= |order|
  {
    && MapInv(pool0, s)
    && |s.clusters| > 0 && s.clusters[0][0] == order[0]
    && Listed(pool0, order, j, s.clusters)
    && (UniqueIds(pool0) ==> FirstFit(pool0, s.clusters) && Complete(pool0, order, j, s.clusters))
  }

  lemma ListedGrows(pool0: seq<Wall>, order: seq<nat>, j: nat, cl: seq<seq<nat>>, cl': seq<seq<nat>>)
    requires Handles(|pool0|, order) && 1 <= j < |order|
    requires WellFormedMap(|pool0|, cl) && WellFormedMap(|pool0|, cl') && Listed(pool0, order, j, cl)
    requires forall c, m :: 0 <= c < |cl'| && 0 <= m < |cl'[c]| ==>
      (c < |cl| && m < |cl[c]| && cl'[c][m] == cl[c][m]) || (cl'[c][m] == order[j] && pool0[order[j]].enabled)
    ensures Listed(pool0, order, j + 1, cl')
  {
    assert order[..j + 1] == order[..j] + [order[j]];
  }

  lemma CompleteGrows(pool0: seq<Wall>, order: seq<nat>, j: nat, cl: seq<seq<nat>>, cl': seq<seq<nat>>)
    requires Handles(|pool0|, order) && j < |order| && Complete(pool0, order, j, cl)
    requires forall x :: InMap(cl, x) ==> InMap(cl', x)
    requires pool0[order[j]].enabled ==> InMap(cl', order[j])
    ensures Complete(pool0, order, j + 1, cl')
  {
  }

  /** Placing h = order[j] when it joins cluster c keeps PlacedInv. */
  lemma JoinKeepsPlacedInv(pool0: seq<Wall>, order: seq<nat>, j: nat, s: MapState, c: nat)
    requires Handles(|pool0|, order) && 1 <= j < |order| && PlacedInv(pool0, order, j, s)
    requires !InMap(s.clusters, order[j]) && pool0[order[j]].enabled && c < |s.clusters|
    requires SamePlane(pool0[order[j]], pool0[s.clusters[c][0]])
    requires UniqueIds(pool0) ==> forall c' :: 0 <= c' < c ==> !SamePlane(pool0[order[j]], pool0[s.clusters[c'][0]])
    ensures PlacedInv(pool0, order, j + 1, Join(s, order[j], c))
  {
    var h := order[j];
    var t := Join(s, h, c);
    JoinKeepsInv(pool0, s, h, c);
    ListedGrows(pool0, order, j, s.clusters, t.clusters);
    if UniqueIds(pool0) {
      JoinKeepsFirstFit(pool0, s, h, c);
      CompleteGrows(pool0, order, j, s.clusters, t.clusters);
    }
  }

  /** Placing h = order[j] when it opens a new cluster keeps PlacedInv. */
  lemma OpenKeepsPlacedInv(pool0: seq<Wall>, order: seq<nat>, j: nat, s: MapState)
    requires Handles(|pool0|, order) && 1 <= j < |order| && PlacedInv(pool0, order, j, s)
    requires !InMap(s.clusters, order[j]) && pool0[order[j]].enabled
    requires UniqueIds(pool0) ==> forall c' :: 0 <= c' < |s.clusters| ==> !SamePlane(pool0[order[j]], pool0[s.clusters[c'][0]])
    ensures PlacedInv(pool0, order, j + 1, Open(s, order[j]))
  {
    var h := order[j];
    var t := Open(s, h);
    OpenKeepsInv(pool0, s, h);
    ListedGrows(pool0, order, j, s.clusters, t.clusters);
    if UniqueIds(pool0) {
      OpenKeepsFirstFit(pool0, s, h);
      CompleteGrows(pool0, order, j, s.clusters, t.clusters);
    }
  }

  /** Placing one more wall h = order[j] keeps PlacedInv. */
  lemma PlaceKeepsInv(pool0: seq<Wall>, order: seq<nat>, j: nat, s: MapState)
    requires Handles(|pool0|, order) && NoRepeats(order) && 1 <= j < |order|
    requires PlacedInv(pool0, order, j, s)
    ensures PlacedInv(pool0, order, j + 1, Place(s, order[j]))
  {
    var h := order[j];
    NotEarlier(order, j);
    assert !InMap(s.clusters, h);
    if !s.pool[h].enabled {
      ListedGrows(pool0, order, j, s.clusters, s.clusters);
      if UniqueIds(pool0) {
        CompleteGrows(pool0, order, j, s.clusters, s.clusters);
      }
      return;
    }
    var c := FindMatch(s, h, 0);
    if c < |s.clusters| {
      ScanJoinsFirstMatch(s, h, 0, c);
      assert s.clusters[c][0] != h;
      if UniqueIds(pool0) {
        forall c' | 0 <= c' < c ensures !SamePlane(pool0[h], pool0[s.clusters[c'][0]]) {
          assert !Matches(s.pool, s.clusters, h, c');
          assert s.clusters[c'][0] != h;
        }
      }
      JoinKeepsPlacedInv(pool0, order, j, s, c);
    } else {
      ScanWithoutMatch(s, h, 0);
      var last := s.clusters[|s.clusters| - 1][0];
      assert last != h;
      if s.pool[h].id != s.pool[last].id {
        if UniqueIds(pool0) {
          forall c' | 0 <= c' < |s.clusters| ensures !SamePlane(pool0[h], pool0[s.clusters[c'][0]]) {
            assert !Matches(s.pool, s.clusters, h, c');
            assert s.clusters[c'][0] != h;
          }
        }
        OpenKeepsPlacedInv(pool0, order, j, s);
      } else {
        ListedGrows(pool0, order, j, s.clusters, s.clusters);
      }
    }
  }

  /** Placing the seed wall itself changes nothing: it skips its own cluster. */
  lemma SeedPlacedAgain(pool0: seq<Wall>, order: seq<nat>)
    requires Handles(|pool0|, order) && |order| > 0
    ensures PlaceAll(Seed(pool0, [], order), order, 1) == Seed(pool0, [], order)
  {
    var seed := Seed(pool0, [], order);
    var h := order[0];
    assert seed.clusters == [[h]];
    assert Scan(seed, h, 1) == seed;
    assert Scan(seed, h, 0) == seed;
  }

  lemma SeedKeepsInv(pool0: seq<Wall>, order: seq<nat>)
    requires Handles(|pool0|, order) && |order| > 0
    ensures MapInv(pool0, Seed(pool0, [], order))
  {
    var h := order[0];
    assert Seed(pool0, [], order) == MapState(pool0[h := pool0[h].(planePolygonMapId := 0)], [[h]]);
  }

  lemma SeedListed(pool0: seq<Wall>, order: seq<nat>)
    requires Handles(|pool0|, order) && |order| > 0
    ensures Listed(pool0, order, 1, [[order[0]]])
    ensures Complete(pool0, order, 1, [[order[0]]])
    ensures FirstFit(pool0, [[order[0]]])
  {
    var h := order[0];
    assert order[..1] == [h];
    assert InMap([[h]], h) by {
      assert [[h]][0][0] == h;
    }
  }

  /** The seed alone already satisfies PlacedInv for the first sorted wall. */
  lemma SeedPlaced(pool0: seq<Wall>, order: seq<nat>)
    requires Handles(|pool0|, order) && |order| > 0
    ensures PlacedInv(pool0, order, 1, Seed(pool0, [], order))
  {
    SeedKeepsInv(pool0, order);
    SeedListed(pool0, order);
    assert Seed(pool0, [], order).clusters == [[order[0]]];
  }

  lemma {:induction false} PlaceAllKeepsInv(pool0: seq<Wall>, order: seq<nat>, j: nat)
    requires Handles(|pool0|, order) && NoRepeats(order) && 1 <= j <= |order|
    ensures PlacedInv(pool0, order, j, PlaceAll(Seed(pool0, [], order), order, j))
  {
    if j == 1 {
      SeedPlacedAgain(pool0, order);
      SeedPlaced(pool0, order);
    } else {
      PlaceAllKeepsInv(pool0, order, j - 1);
      PlaceKeepsInv(pool0, order, j - 1, PlaceAll(Seed(pool0, [], order), order, j - 1));
    }
  }

  /**
    The map built from scratch for walls sorted by id: only map ids change
    in the pool, no wall is clustered twice, every member lies in its
    representative's plane and records its cluster's index, the first
    sorted wall heads cluster 0, and every other member is enabled.
  */
  lemma BuildMapProperties(pool: seq<Wall>, order: seq<nat>)
    requires Handles(|pool|, order) && NoRepeats(order) && |order| > 0
    ensures var s := BuildMap(pool, [], order);
      && OnlyMapIdsChanged(pool, s.pool)
      && DistinctHandles(s.clusters)
      && Coplanar(pool, s.clusters)
      && MapIdsMatch(s.pool, s.clusters)
      && |s.clusters| > 0 && s.clusters[0][0] == order[0]
      && (forall c, m :: 0 <= c < |s.clusters| && 0 <= m < |s.clusters[c]| ==>
            s.clusters[c][m] in order && (s.clusters[c][m] == order[0] || pool[s.clusters[c][m]].enabled))
  {
    PlaceAllKeepsInv(pool, order, |order|);
    assert order[..|order|] == order;
  }

  /**
    With unique ids, every enabled wall of the list is clustered, each
    member is coplanar with no earlier representative (it joined the first
    matching cluster), and walls of different clusters never share a plane.
  */
  lemma BuildMapWithUniqueIds(pool: seq<Wall>, order: seq<nat>)
    requires Handles(|pool|, order) && NoRepeats(order) && |order| > 0 && UniqueIds(pool)
    ensures var s := BuildMap(pool, [], order);
      && (forall p :: 0 <= p < |order| && pool[order[p]].enabled ==> InMap(s.clusters, order[p]))
      && FirstFit(pool, s.clusters)
      && (forall c1, m1, c2, m2 :: (0 <= c1 < |s.clusters| && 0 <= m1 < |s.clusters[c1]| &&
                                    0 <= c2 < |s.clusters| && 0 <= m2 < |s.clusters[c2]| && c1 != c2) ==>
            !SamePlane(pool[s.clusters[c1][m1]], pool[s.clusters[c2][m2]]))
  {
    PlaceAllKeepsInv(pool, order, |order|);
    var s := BuildMap(pool, [], order);
    FirstFitSeparates(pool, s.clusters);
  }

  /** With coplanar clusters and first-fit placement, members of different clusters are never coplanar. */
  lemma FirstFitSeparates(pool: seq<Wall>, clusters: seq<seq<nat>>)
    requires WellFormedMap(|pool|, clusters) && Coplanar(pool, clusters) && FirstFit(pool, clusters)
    ensures forall c1, m1, c2, m2 :: (0 <= c1 < |clusters| && 0 <= m1 < |clusters[c1]| &&
                                      0 <= c2 < |clusters| && 0 <= m2 < |clusters[c2]| && c1 != c2) ==>
              !SamePlane(pool[clusters[c1][m1]], pool[clusters[c2][m2]])
  {
    forall c1, m1, c2, m2 | 0 <= c1 < |clusters| && 0 <= m1 < |clusters[c1]| &&
        0 <= c2 < |clusters| && 0 <= m2 < |clusters[c2]| && c1 != c2
      ensures !SamePlane(pool[clusters[c1][m1]], pool[clusters[c2][m2]])
    {
      if c1 < c2 {
        assert SamePlane(pool[clusters[c1][m1]], pool[clusters[c1][0]]);
        assert !SamePlane(pool[clusters[c2][m2]], pool[clusters[c1][0]]);
      } else {
        assert SamePlane(pool[clusters[c2][m2]], pool[clusters[c2][0]]);
        assert !SamePlane(pool[clusters[c1][m1]], pool[clusters[c2][0]]);
      }
    }
  }

  // ---------------------------------------------------------------------
  // The sort by id that precedes the scan

  function InsertById(pool: seq<Wall>, h: nat, hs: seq<nat>): (r: seq<nat>)
    requires h < |pool| && Handles(|pool|, hs) && SortedById(pool, hs)
    ensures Handles(|pool|, r) && SortedById(pool, r) && multiset(r) == multiset(hs) + multiset{h}
  {
    if hs == [] then [h]
    else if pool[h].id <= pool[hs[0]].id then
      InsertFirst(pool, h, hs);
      [h] + hs
    else
      var rest := InsertById(pool, h, hs[1..]);
      InsertLater(pool, h, hs, rest);
      [hs[0]] + rest
  }

  lemma InsertFirst(pool: seq<Wall>, h: nat, hs: seq<nat>)
    requires h < |pool| && Handles(|pool|, hs) && SortedById(pool, hs)
    requires hs != [] && pool[h].id <= pool[hs[0]].id
    ensures Handles(|pool|, [h] + hs) && SortedById(pool, [h] + hs)
  {
    assert forall k :: 0 <= k < |hs| ==> pool[h].id <= pool[hs[k]].id;
    LeastFirst(pool, h, hs);
  }

  lemma InsertLater(pool: seq<Wall>, h: nat, hs: seq<nat>, rest: seq<nat>)
    requires h < |pool| && Handles(|pool|, hs) && SortedById(pool, hs)
    requires hs != [] && pool[hs[0]].id < pool[h].id
    requires Handles(|pool|, rest) && SortedById(pool, rest) && multiset(rest) == multiset(hs[1..]) + multiset{h}
    ensures Handles(|pool|, [hs[0]] + rest) && SortedById(pool, [hs[0]] + rest)
    ensures multiset([hs[0]] + rest) == multiset(hs) + multiset{h}
  {
    assert hs == [hs[0]] + hs[1..];
    forall k | 0 <= k < |rest| ensures pool[hs[0]].id <= pool[rest[k]].id {
      assert rest[k] in multiset(rest);
      if rest[k] != h {
        assert rest[k] in multiset(hs[1..]);
        var j :| 0 <= j < |hs[1..]| && hs[1..][j] == rest[k];
        assert hs[j + 1] == rest[k];
      }
    }
    LeastFirst(pool, hs[0], rest);
  }

  lemma LeastFirst(pool: seq<Wall>, x: nat, rest: seq<nat>)
    requires x < |pool| && Handles(|pool|, rest) && SortedById(pool, rest)
    requires forall k :: 0 <= k < |rest| ==> pool[x].id <= pool[rest[k]].id
    ensures SortedById(pool, [x] + rest)
  {
  }

  /** Some ordering of the handles by non-decreasing id exists (ties in any order are as good). */
  function SortById(pool: seq<Wall>, hs: seq<nat>): (r: seq<nat>)
    requires Handles(|pool|, hs)
    ensures Handles(|pool|, r) && SortedById(pool, r) && multiset(r) == multiset(hs)
  {
    if hs == [] then []
    else
      assert hs == [hs[0]] + hs[1..];
      InsertById(pool, hs[0], SortById(pool, hs[1..]))
  }

  lemma {:induction false} IncreasingNoRepeats(hs: seq<nat>)
    requires forall a, b :: 0 <= a < b < |hs| ==> hs[a] < hs[b]
    ensures NoRepeats(hs)
  {
    if hs != [] {
      IncreasingNoRepeats(hs[1..]);
      assert hs == [hs[0]] + hs[1..];
      assert hs[0] !in hs[1..];
    }
  }
}

=== FILE: reflectables.dfy ===
/**
  Aggregation of direct reflectables over the plane-polygon map: each
  cluster's representative receives the union of its members' lists,
  sorted and without repeats; the other members keep their own lists.
  Reflectable walls are handles, compared by value.
*/
module Reflectables {
  import opened Walls
  import opened PlanePolygonMap

  predicate Ascending(s: seq<nat>) {
    forall a, b :: 0 <= a < b < |s| ==> s[a] <= s[b]
  }

  predicate StrictlySorted(s: seq<nat>) {
    forall a, b :: 0 <= a < b < |s| ==> s[a] < s[b]
  }

  function InsertAscending(x: nat, s: seq<nat>): (r: seq<nat>)
    requires Ascending(s)
    ensures Ascending(r) && multiset(r) == multiset(s) + multiset{x}
  {
    if s == [] || x <= s[0] then
      PrependAscending(x, s);
      [x] + s
    else
      var rest := InsertAscending(x, s[1..]);
      InsertAscendingLater(x, s, rest);
      [s[0]] + rest
  }

  lemma PrependAscending(x: nat, s: seq<nat>)
    requires Ascending(s) && (s == [] || x <= s[0])
    ensures Ascending([x] + s)
  {
    assert forall k :: 0 <= k < |s| ==> x <= s[k];
  }

  lemma InsertAscendingLater(x: nat, s: seq<nat>, rest: seq<nat>)
    requires Ascending(s) && s != [] && s[0] < x
    requires Ascending(rest) && multiset(rest) == multiset(s[1..]) + multiset{x}
    ensures Ascending([s[0]] + rest) && multiset([s[0]] + rest) == multiset(s) + multiset{x}
  {
    assert s == [s[0]] + s[1..];
    AtLeastHead(s[0], x, s[1..], rest);
  }

  /** A list holding the elements of t and x, all at least lo, lies at or above lo. */
  lemma AtLeastHead(lo: nat, x: nat, t: seq<nat>, rest: seq<nat>)
    requires lo <= x && forall k :: 0 <= k < |t| ==> lo <= t[k]
    requires multiset(rest) == multiset(t) + multiset{x}
    ensures forall k :: 0 <= k < |rest| ==> lo <= rest[k]
  {
    forall k | 0 <= k < |rest| ensures lo <= rest[k] {
      assert rest[k] in multiset(rest);
      if rest[k] != x {
        assert rest[k] in multiset(t);
        assert rest[k] in t;
      }
    }
  }

  /** The list in ascending order; for numbers this result is the same whatever sorting algorithm is used. */
  function SortAscending(s: seq<nat>): (r: seq<nat>)
    ensures Ascending(r) && multiset(r) == multiset(s)
  {
    if s == [] then []
    else
      assert s == [s[0]] + s[1..];
      InsertAscending(s[0], SortAscending(s[1..]))
  }

  function InsertUnique(x: nat, s: seq<nat>): (r: seq<nat>)
    requires StrictlySorted(s)
    ensures StrictlySorted(r) && forall y :: y in r <==> y == x || y in s
  {
    if s == [] || x < s[0] then
      PrependStrict(x, s);
      [x] + s
    else if x == s[0] then s
    else
      var rest := InsertUnique(x, s[1..]);
      InsertUniqueLater(x, s, rest);
      [s[0]] + rest
  }

  lemma PrependStrict(x: nat, s: seq<nat>)
    requires StrictlySorted(s) && (s == [] || x < s[0])
    ensures StrictlySorted([x] + s)
  {
    assert forall k :: 0 <= k < |s| ==> x < s[k];
  }

  lemma InsertUniqueLater(x: nat, s: seq<nat>, rest: seq<nat>)
    requires StrictlySorted(s) && s != [] && s[0] < x
    requires StrictlySorted(rest) && forall y :: y in rest <==> y == x || y in s[1..]
    ensures StrictlySorted([s[0]] + rest) && forall y :: y in [s[0]] + rest <==> y == x || y in s
  {
    assert forall y :: y in s <==> y == s[0] || y in s[1..];
    assert forall y :: y in s[1..] ==> s[0] < y;
    assert forall k :: 0 <= k < |rest| ==> rest[k] in rest;
  }

  /** What sorting a list and dropping repeats leaves: its elements, each once, ascending. */
  function SortedUnique(s: seq<nat>): (r: seq<nat>)
    ensures StrictlySorted(r) && forall y :: y in r <==> y in s
  {
    if s == [] then []
    else
      assert forall y :: y in s <==> y == s[0] || y in s[1..];
      InsertUnique(s[0], SortedUnique(s[1..]))
  }

  lemma HasElement(b: seq<nat>)
    requires b != []
    ensures exists y :: y in b
  {
    assert b[0] in b;
  }

  /** A strictly ascending list is determined by its elements. */
  lemma {:induction false} StrictlySortedBySet(a: seq<nat>, b: seq<nat>)
    requires StrictlySorted(a) && StrictlySorted(b)
    requires forall y :: y in a <==> y in b
    ensures a == b
    decreases |a|
  {
    if a == [] {
      if b != [] {
        HasElement(b);
        assert false;
      }
    } else {
      assert b != [] by {
        assert a[0] in b;
      }
      assert a[0] in b && b[0] in a;
      assert a[0] == b[0];
      forall y ensures y in a[1..] <==> y in b[1..] {
        assert y in a[1..] <==> y in a && y != a[0];
        assert y in b[1..] <==> y in b && y != b[0];
      }
      StrictlySortedBySet(a[1..], b[1..]);
      assert a == [a[0]] + a[1..] && b == [b[0]] + b[1..];
    }
  }

  /** The members' lists concatenated in member order. */
  function Gathered(pool: seq<Wall>, members: seq<nat>): seq<nat>
    requires Handles(|pool|, members)
  {
    if members == [] then []
    else Gathered(pool, members[..|members| - 1]) + pool[members[|members| - 1]].directReflectables
  }

  lemma {:induction false} GatheredHas(pool: seq<Wall>, members: seq<nat>)
    requires Handles(|pool|, members)
    ensures forall x :: x in Gathered(pool, members) <==>
      exists m :: 0 <= m < |members| && x in pool[members[m]].directReflectables
  {
    if members != [] {
      var init := members[..|members| - 1];
      GatheredHas(pool, init);
      forall x ensures x in Gathered(pool, members) <==>
        exists m :: 0 <= m < |members| && x in pool[members[m]].directReflectables
      {
        if x in Gathered(pool, init) {
          var m :| 0 <= m < |init| && x in pool[init[m]].directReflectables;
          assert members[m] == init[m];
        }
        if exists m :: 0 <= m < |members| && x in pool[members[m]].directReflectables {
          var m :| 0 <= m < |members| && x in pool[members[m]].directReflectables;
          if m < |init| {
            assert init[m] == members[m];
          }
        }
      }
    }
  }

  /** Gathering reads only the members' lists. */
  lemma {:induction false} GatheredFrame(p1: seq<Wall>, p2: seq<Wall>, members: seq<nat>)
    requires Handles(|p1|, members) && |p2| == |p1|
    requires forall k :: 0 <= k < |members| ==> p1[members[k]].directReflectables == p2[members[k]].directReflectables
    ensures Gathered(p1, members) == Gathered(p2, members)
  {
    if members != [] {
      GatheredFrame(p1, p2, members[..|members| - 1]);
    }
  }

  /** The members' reflectable lists concatenated in cluster order. */
  method GatherReflectables(pool: seq<Wall>, cluster: seq<nat>) returns (united: seq<nat>)
    requires Handles(|pool|, cluster)
    ensures united == Gathered(pool, cluster)
  {
    united := [];
    for k := 0 to |cluster|
      invariant united == Gathered(pool, cluster[..k])
    {
      var refl := pool[cluster[k]].directReflectables;
      assert cluster[..k + 1][..k] == cluster[..k];
      for e := 0 to |refl|
        invariant united == Gathered(pool, cluster[..k]) + refl[..e]
      {
        assert refl[..e + 1] == refl[..e] + [refl[e]];
        united := united + [refl[e]];
      }
      assert refl[..|refl|] == refl;
    }
    assert cluster[..|cluster|] == cluster;
  }

  /** One cluster: its representative gets the sorted, repeat-free union. */
  function UnifyCluster(pool: seq<Wall>, cluster: seq<nat>): (r: seq<Wall>)
    requires |cluster| > 0 && Handles(|pool|, cluster)
    ensures |r| == |pool|
  {
    var rep := cluster[0];
    pool[rep := pool[rep].(directReflectables := SortedUnique(Gathered(pool, cluster)))]
  }

  /** The first c clusters processed in map order. */
  function UnifyUpTo(pool: seq<Wall>, clusters: seq<seq<nat>>, c: nat): (r: seq<Wall>)
    requires WellFormedMap(|pool|, clusters) && c <= |clusters|
    ensures |r| == |pool|
  {
    if c == 0 then pool
    else
      var prev := UnifyUpTo(pool, clusters, c - 1);
      assert Handles(|prev|, clusters[c - 1]);
      UnifyCluster(prev, clusters[c - 1])
  }

  /** aggregate_reflectables: every cluster in map order; only reflectable lists change. */
  function Unified(pool: seq<Wall>, clusters: seq<seq<nat>>): (r: seq<Wall>)
    requires WellFormedMap(|pool|, clusters)
    ensures |r| == |pool|
    ensures forall j :: 0 <= j < |pool| ==> r[j] == pool[j].(directReflectables := r[j].directReflectables)
  {
    UnifyUpToChangesReflectablesOnly(pool, clusters, |clusters|);
    UnifyUpTo(pool, clusters, |clusters|)
  }

  /** The first c clusters change nothing but reflectable lists. */
  lemma {:induction false} UnifyUpToChangesReflectablesOnly(pool: seq<Wall>, clusters: seq<seq<nat>>, c: nat)
    requires WellFormedMap(|pool|, clusters) && c <= |clusters|
    ensures var r := UnifyUpTo(pool, clusters, c);
      forall j :: 0 <= j < |pool| ==> r[j] == pool[j].(directReflectables := r[j].directReflectables)
  {
    if c > 0 {
      UnifyUpToChangesReflectablesOnly(pool, clusters, c - 1);
      var prev := UnifyUpTo(pool, clusters, c - 1);
      var r := UnifyCluster(prev, clusters[c - 1]);
      assert UnifyUpTo(pool, clusters, c) == r;
      forall j | 0 <= j < |pool| ensures r[j] == pool[j].(directReflectables := r[j].directReflectables) {
        assert r[j] == prev[j].(directReflectables := r[j].directReflectables);
      }
    }
  }

  /** Walls that represent none of the first c clusters are untouched by them. */
  lemma {:induction false} UnifyUpToKeeps(pool: seq<Wall>, clusters: seq<seq<nat>>, c: nat, h: nat)
    requires WellFormedMap(|pool|, clusters) && c <= |clusters| && h < |pool|
    requires forall c' :: 0 <= c' < c ==> clusters[c'][0] != h
    ensures UnifyUpTo(pool, clusters, c)[h] == pool[h]
  {
    if c > 0 {
      UnifyUpToKeeps(pool, clusters, c - 1, h);
    }
  }

  /** A cluster's members are untouched by the clusters before it. */
  lemma MembersUntouched(pool: seq<Wall>, clusters: seq<seq<nat>>, c: nat)
    requires WellFormedMap(|pool|, clusters) && DistinctHandles(clusters) && c < |clusters|
    ensures forall k :: 0 <= k < |clusters[c]| ==> UnifyUpTo(pool, clusters, c)[clusters[c][k]] == pool[clusters[c][k]]
  {
    var cluster := clusters[c];
    forall k | 0 <= k < |cluster| ensures UnifyUpTo(pool, clusters, c)[cluster[k]] == pool[cluster[k]] {
      forall c' | 0 <= c' < c ensures clusters[c'][0] != cluster[k] {
        assert clusters[c'][0] == clusters[c'][0];
      }
      UnifyUpToKeeps(pool, clusters, c, cluster[k]);
    }
  }

  /** Processing cluster c gives its representative the cluster's union. */
  lemma UnifyClusterRep(pool: seq<Wall>, clusters: seq<seq<nat>>, c: nat)
    requires WellFormedMap(|pool|, clusters) && DistinctHandles(clusters) && c < |clusters|
    ensures UnifyUpTo(pool, clusters, c + 1)[clusters[c][0]] ==
      pool[clusters[c][0]].(directReflectables := SortedUnique(Gathered(pool, clusters[c])))
  {
    var prev := UnifyUpTo(pool, clusters, c);
    MembersUntouched(pool, clusters, c);
    GatheredFrame(prev, pool, clusters[c]);
    assert UnifyUpTo(pool, clusters, c + 1) == UnifyCluster(prev, clusters[c]);
  }

  /** Different clusters have different representatives. */
  lemma RepsDiffer(clusters: seq<seq<nat>>, a: nat, b: nat, n: nat)
    requires WellFormedMap(n, clusters) && DistinctHandles(clusters)
    requires a < |clusters| && b < |clusters| && a != b
    ensures clusters[a][0] != clusters[b][0]
  {
  }

  /** Processing cluster c leaves the representative of another cluster c' as it was. */
  lemma LaterClusterKeepsRep(pool: seq<Wall>, clusters: seq<seq<nat>>, c: nat, c': nat)
    requires WellFormedMap(|pool|, clusters) && DistinctHandles(clusters) && c' < c < |clusters|
    ensures UnifyUpTo(pool, clusters, c + 1)[clusters[c'][0]] == UnifyUpTo(pool, clusters, c)[clusters[c'][0]]
  {
    RepsDiffer(clusters, c', c, |pool|);
    var prev := UnifyUpTo(pool, clusters, c);
    assert UnifyUpTo(pool, clusters, c + 1) == UnifyCluster(prev, clusters[c]);
  }

  /** After c clusters, the representative of cluster c' < c holds that cluster's union. */
  lemma {:induction false} UnifyUpToRep(pool: seq<Wall>, clusters: seq<seq<nat>>, c: nat, c': nat)
    requires WellFormedMap(|pool|, clusters) && DistinctHandles(clusters) && c' < c <= |clusters|
    ensures UnifyUpTo(pool, clusters, c)[clusters[c'][0]] ==
      pool[clusters[c'][0]].(directReflectables := SortedUnique(Gathered(pool, clusters[c'])))
  {
    if c' == c - 1 {
      UnifyClusterRep(pool, clusters, c');
    } else {
      UnifyUpToRep(pool, clusters, c - 1, c');
      LaterClusterKeepsRep(pool, clusters, c - 1, c');
    }
  }

  lemma UnifyUpToState(pool: seq<Wall>, clusters: seq<seq<nat>>, c: nat)
    requires WellFormedMap(|pool|, clusters) && DistinctHandles(clusters) && c <= |clusters|
    ensures forall c' :: 0 <= c' < c ==>
      UnifyUpTo(pool, clusters, c)[clusters[c'][0]] ==
        pool[clusters[c'][0]].(directReflectables := SortedUnique(Gathered(pool, clusters[c'])))
    ensures forall h :: 0 <= h < |pool| && (forall c' :: 0 <= c' < c ==> clusters[c'][0] != h) ==>
      UnifyUpTo(pool, clusters, c)[h] == pool[h]
  {
    forall c' | 0 <= c' < c
      ensures UnifyUpTo(pool, clusters, c)[clusters[c'][0]] ==
        pool[clusters[c'][0]].(directReflectables := SortedUnique(Gathered(pool, clusters[c'])))
    {
      UnifyUpToRep(pool, clusters, c, c');
    }
    forall h | 0 <= h < |pool| && (forall c' :: 0 <= c' < c ==> clusters[c'][0] != h)
      ensures UnifyUpTo(pool, clusters, c)[h] == pool[h]
    {
      UnifyUpToKeeps(pool, clusters, c, h);
    }
  }

  /**
    After aggregation each representative holds, strictly ascending, exactly
    the reflectables of its cluster's members and is otherwise unchanged;
    walls that represent no cluster are untouched.
  */
  lemma UnifiedReflectables(pool: seq<Wall>, clusters: seq<seq<nat>>)
    requires WellFormedMap(|pool|, clusters) && DistinctHandles(clusters)
    ensures forall c :: 0 <= c < |clusters| ==>
      var rep := Unified(pool, clusters)[clusters[c][0]];
      && rep == pool[clusters[c][0]].(directReflectables := rep.directReflectables)
      && StrictlySorted(rep.directReflectables)
      && forall x :: x in rep.directReflectables <==>
           exists m :: 0 <= m < |clusters[c]| && x in pool[clusters[c][m]].directReflectables
    ensures forall h :: 0 <= h < |pool| && (forall c :: 0 <= c < |clusters| ==> clusters[c][0] != h) ==>
      Unified(pool, clusters)[h] == pool[h]
  {
    UnifyUpToState(pool, clusters, |clusters|);
    forall c | 0 <= c < |clusters| {
      GatheredHas(pool, clusters[c]);
    }
  }

  /** No cluster member other than the representative represents a cluster. */
  lemma MemberIsNoRep(clusters: seq<seq<nat>>, c: nat, m: nat, n: nat)
    requires WellFormedMap(n, clusters) && DistinctHandles(clusters)
    requires c < |clusters| && 1 <= m < |clusters[c]|
    ensures forall c' :: 0 <= c' < |clusters| ==> clusters[c'][0] != clusters[c][m]
  {
    forall c' | 0 <= c' < |clusters| ensures clusters[c'][0] != clusters[c][m] {
      assert clusters[c'][0] == clusters[c'][0];
    }
  }

  /** Every element of a member's list is gathered. */
  lemma {:induction false} GatheredMember(pool: seq<Wall>, members: seq<nat>, m: nat, x: nat)
    requires Handles(|pool|, members) && m < |members| && x in pool[members[m]].directReflectables
    ensures x in Gathered(pool, members)
  {
    if m < |members| - 1 {
      GatheredMember(pool, members[..|members| - 1], m, x);
    }
  }

  /** Every gathered element comes from some member's list. */
  lemma {:induction false} GatheredSource(pool: seq<Wall>, members: seq<nat>, x: nat) returns (m: nat)
    requires Handles(|pool|, members) && x in Gathered(pool, members)
    ensures m < |members| && x in pool[members[m]].directReflectables
  {
    var last := |members| - 1;
    if x in pool[members[last]].directReflectables {
      m := last;
    } else {
      m := GatheredSource(pool, members[..last], x);
    }
  }

  /** Gathering a cluster again after aggregation finds the same elements. */
  lemma RegatheredElements(pool: seq<Wall>, clusters: seq<seq<nat>>, c: nat)
    requires WellFormedMap(|pool|, clusters) && DistinctHandles(clusters) && c < |clusters|
    ensures forall x :: x in Gathered(Unified(pool, clusters), clusters[c]) <==> x in Gathered(pool, clusters[c])
  {
    var p1 := Unified(pool, clusters);
    var cluster := clusters[c];
    UnifyUpToRep(pool, clusters, |clusters|, c);
    assert forall x :: x in p1[cluster[0]].directReflectables <==> x in Gathered(pool, cluster);
    forall x | x in Gathered(p1, cluster) ensures x in Gathered(pool, cluster) {
      var m := GatheredSource(p1, cluster, x);
      if m > 0 {
        MemberIsNoRep(clusters, c, m, |pool|);
        UnifyUpToKeeps(pool, clusters, |clusters|, cluster[m]);
        GatheredMember(pool, cluster, m, x);
      }
    }
    forall x | x in Gathered(pool, cluster) ensures x in Gathered(p1, cluster) {
      GatheredMember(p1, cluster, 0, x);
    }
  }

  /** A representative keeps its aggregated list when aggregation runs again. */
  lemma RepStable(pool: seq<Wall>, clusters: seq<seq<nat>>, c: nat)
    requires WellFormedMap(|pool|, clusters) && DistinctHandles(clusters) && c < |clusters|
    ensures Unified(Unified(pool, clusters), clusters)[clusters[c][0]] == Unified(pool, clusters)[clusters[c][0]]
  {
    var p1 := Unified(pool, clusters);
    UnifyUpToRep(pool, clusters, |clusters|, c);
    UnifyUpToRep(p1, clusters, |clusters|, c);
    RegatheredElements(pool, clusters, c);
    StrictlySortedBySet(SortedUnique(Gathered(p1, clusters[c])), SortedUnique(Gathered(pool, clusters[c])));
  }

  /** Aggregating a second time changes nothing. */
  lemma UnifiedIdempotent(pool: seq<Wall>, clusters: seq<seq<nat>>)
    requires WellFormedMap(|pool|, clusters) && DistinctHandles(clusters)
    ensures Unified(Unified(pool, clusters), clusters) == Unified(pool, clusters)
  {
    var p1 := Unified(pool, clusters);
    var p2 := Unified(p1, clusters);
    forall h | 0 <= h < |p1| ensures p2[h] == p1[h] {
      if exists c :: 0 <= c < |clusters| && clusters[c][0] == h {
        var c :| 0 <= c < |clusters| && clusters[c][0] == h;
        RepStable(pool, clusters, c);
      } else {
        UnifyUpToKeeps(p1, clusters, |clusters|, h);
      }
    }
  }

  /** Appending an element above every element keeps a list strictly sorted. */
  lemma AppendAbove(r: seq<nat>, x: nat)
    requires StrictlySorted(r) && (r != [] ==> r[|r| - 1] < x)
    ensures StrictlySorted(r + [x])
  {
    var r' := r + [x];
    forall a, b | 0 <= a < b < |r'| ensures r'[a] < r'[b] {
      if b == |r| && a < |r| - 1 {
        assert r[a] < r[|r| - 1];
      }
    }
  }

  /** One step of dropping repeats from an ascending list: x is kept unless it equals the last kept. */
  lemma DedupStep(r: seq<nat>, sorted: seq<nat>, i: nat)
    requires Ascending(sorted) && i < |sorted| && StrictlySorted(r)
    requires forall y :: y in r <==> y in sorted[..i]
    requires i > 0 ==> |r| > 0 && r[|r| - 1] == sorted[i - 1]
    ensures var r' := if r == [] || r[|r| - 1] != sorted[i] then r + [sorted[i]] else r;
      && StrictlySorted(r')
      && (forall y :: y in r' <==> y in sorted[..i + 1])
      && |r'| > 0 && r'[|r'| - 1] == sorted[i]
  {
    assert sorted[..i + 1] == sorted[..i] + [sorted[i]];
    if r == [] || r[|r| - 1] != sorted[i] {
      DedupKeep(r, sorted, i);
    }
  }

  /** A new value is appended above the last kept one. */
  lemma DedupKeep(r: seq<nat>, sorted: seq<nat>, i: nat)
    requires Ascending(sorted) && i < |sorted| && StrictlySorted(r)
    requires forall y :: y in r <==> y in sorted[..i]
    requires i > 0 ==> |r| > 0 && r[|r| - 1] == sorted[i - 1]
    requires r == [] || r[|r| - 1] != sorted[i]
    ensures StrictlySorted(r + [sorted[i]])
    ensures forall y :: y in r + [sorted[i]] <==> y in r || y == sorted[i]
  {
    if r != [] {
      assert r[0] in sorted[..i];
      assert sorted[i - 1] <= sorted[i];
    }
    AppendAbove(r, sorted[i]);
  }

  /**
    The sort, unique and resize applied to the gathered list: sort it, keep
    the first of every run of equal neighbours. The result holds each
    element of s exactly once, ascending.
  */
  method SortAndDedup(s: seq<nat>) returns (r: seq<nat>)
    ensures StrictlySorted(r) && forall y :: y in r <==> y in s
  {
    var sorted := SortAscending(s);
    r := [];
    for i := 0 to |sorted|
      invariant StrictlySorted(r)
      invariant forall y :: y in r <==> y in sorted[..i]
      invariant i > 0 ==> |r| > 0 && r[|r| - 1] == sorted[i - 1]
    {
      DedupStep(r, sorted, i);
      if r == [] || r[|r| - 1] != sorted[i] {
        r := r + [sorted[i]];
      }
    }
    assert sorted[..|sorted|] == sorted;
    assert forall y :: y in sorted <==> y in multiset(s);
  }
}

=== FILE: room_model.dfy ===
/**
  The room model: the walls of the room, the pool of walls the BSP builder
  creates, the plane-polygon map over that pool and the tree. Pointers to
  walls are handles into `walls` (parents) or into `pool` (everything the
  tree, the map and the reflectable lists refer to).
*/
module RoomModels {
  import opened Options
  import opened Geometry
  import opened Walls
  import opened BspTree
  import opened BspBuilder
  import opened Harmonisation
  import opened PlanePolygonMap
  import opened Reflectables

  /** How disabling by index ended: every index was in range, or the first one that was not. */
  datatype Outcome = Done | OutOfRange(index: nat)

  /**
    The visibility step between clustering and aggregation (wall state,
    blockable walls and the reflectable lists derived from the map) is
    external to this model: `reflect` gives the list it assigns to wall i.
  */
  function Visible(pool: seq<Wall>, clusters: seq<seq<nat>>, reflect: (seq<Wall>, seq<seq<nat>>, nat) -> seq<nat>): (r: seq<Wall>)
    ensures |r| == |pool|
  {
    seq(|pool|, i requires 0 <= i < |pool| => pool[i].(directReflectables := reflect(pool, clusters, i)))
  }

  class RoomModel {
    var wallsToDisable: seq<nat>
    var walls: seq<Wall>
    var pool: seq<Wall>
    var wallsBsp: seq<Wall>
    var planePolygonMap: seq<seq<nat>>
    var bspTree: Option<BSPNode>
    var bspTreeHeight: int

    /** The map refers only to pool walls and every cluster has a representative. */
    ghost predicate Valid()
      reads this
    {
      WellFormedMap(|pool|, planePolygonMap)
    }

    constructor (wallsToDisable: seq<nat>)
      ensures Valid()
      ensures this.wallsToDisable == wallsToDisable
      ensures walls == [] && pool == [] && wallsBsp == [] && planePolygonMap == []
      ensures bspTree == None && bspTreeHeight == 0
    {
      this.wallsToDisable := wallsToDisable;
      walls, pool, wallsBsp, planePolygonMap := [], [], [], [];
      bspTree, bspTreeHeight := None, 0;
    }

    /**
      disable_selected_walls: clears the enabled flag of the walls at the
      listed positions. An index past the end stops the walk with an error,
      the walls listed before it already disabled.
    */
    method DisableSelectedWalls(ws: seq<Wall>) returns (r: seq<Wall>, outcome: Outcome)
      ensures |r| == |ws|
      ensures outcome == Done <==> forall k :: 0 <= k < |wallsToDisable| ==> wallsToDisable[k] < |ws|
      ensures forall j :: 0 <= j < |ws| ==> r[j].(enabled := ws[j].enabled) == ws[j]
      ensures outcome == Done ==>
        forall j :: 0 <= j < |ws| ==> (r[j].enabled <==> ws[j].enabled && j !in wallsToDisable)
      ensures outcome.OutOfRange? ==>
        exists k :: 0 <= k < |wallsToDisable| && wallsToDisable[k] == outcome.index && outcome.index >= |ws|
          && (forall k' :: 0 <= k' < k ==> wallsToDisable[k'] < |ws|)
          && forall j :: 0 <= j < |ws| ==> (r[j].enabled <==> ws[j].enabled && j !in wallsToDisable[..k])
    {
      r := ws;
      for k := 0 to |wallsToDisable|
        invariant |r| == |ws|
        invariant forall k' :: 0 <= k' < k ==> wallsToDisable[k'] < |ws|
        invariant forall j :: 0 <= j < |ws| ==> r[j].(enabled := ws[j].enabled) == ws[j]
        invariant forall j :: 0 <= j < |ws| ==> (r[j].enabled <==> ws[j].enabled && j !in wallsToDisable[..k])
      {
        var wallId := wallsToDisable[k];
        if wallId >= |r| {
          outcome := OutOfRange(wallId);
          return;
        }
        assert wallsToDisable[..k + 1] == wallsToDisable[..k] + [wallId];
        r := r[wallId := r[wallId].(enabled := false)];
      }
      outcome := Done;
      assert wallsToDisable[..|wallsToDisable|] == wallsToDisable;
    }

    /**
      Identifier harmonisation: for each room wall index i, the pool walls
      with parent i are renumbered i * 1000 + 0, 1, ... in pool order.
    */
    method HarmoniseIds()
      modifies this`pool
      ensures pool == Harmonised(old(pool), |walls|)
    {
      ghost var pool0 := pool;
      for i := 0 to |walls|
        invariant HarmonisedUpTo(pool0, |walls|, pool, i, 0)
      {
        var counter := 0;
        for j := 0 to |pool|
          invariant HarmonisedUpTo(pool0, |walls|, pool, i, j)
          invariant counter == ParentRank(pool0, i, j)
        {
          HarmoniseStep(pool0, |walls|, pool, i, j, counter);
          if pool[j].parentId == i {
            pool := pool[j := pool[j].(id := pool[j].parentId * 1000 + counter)];
            counter := counter + 1;
          }
        }
        HarmoniseNext(pool0, |walls|, pool, i);
      }
      HarmoniseNext(pool0, |walls|, pool, |walls|);
    }

    /**
      The scan of create_plane_polygon_map for one enabled wall h. It runs
      on after opening a new cluster: the next round meets h itself as that
      cluster's representative and skips it, which ends the loop.
    */
    method PlaceInMap(h: nat)
      requires h < |pool| && WellFormedMap(|pool|, planePolygonMap)
      modifies this`pool, this`planePolygonMap
      ensures MapState(pool, planePolygonMap) == Scan(MapState(old(pool), old(planePolygonMap)), h, 0)
    {
      ghost var start := MapState(pool, planePolygonMap);
      ghost var newCluster := false;
      var i := 0;
      while i < |planePolygonMap|
        invariant |pool| == |start.pool| && WellFormedMap(|pool|, planePolygonMap)
        invariant !newCluster ==>
          MapState(pool, planePolygonMap) == start && i <= |start.clusters| && Scan(start, h, i) == Scan(start, h, 0)
        invariant newCluster ==>
          MapState(pool, planePolygonMap) == Open(start, h) == Scan(start, h, 0) && |start.clusters| <= i <= |start.clusters| + 1
        decreases |planePolygonMap| + (if newCluster then 0 else 1) - i
      {
        var rep := planePolygonMap[i][0];
        if pool[h].id == pool[rep].id {
          i := i + 1;
          continue;
        }
        var same := SameNormalAndOffset(pool[rep], pool[h]);
        if same {
          planePolygonMap := planePolygonMap[i := planePolygonMap[i] + [h]];
          pool := pool[h := pool[h].(planePolygonMapId := i)];
          break;
        } else if i == |planePolygonMap| - 1 {
          planePolygonMap := planePolygonMap + [[h]];
          pool := pool[h := pool[h].(planePolygonMapId := i + 1)];
          newCluster := true;
        }
        i := i + 1;
      }
    }

    /**
      create_plane_polygon_map: sorts the given pool handles by id (ties in
      any order), seeds the map with the first of them, then places every
      enabled wall in turn. `order` is the sorted list the run used.
    */
    method CreatePlanePolygonMap(wallsToCheck: seq<nat>) returns (ghost order: seq<nat>)
      requires |wallsToCheck| > 0 && Handles(|pool|, wallsToCheck) && WellFormedMap(|pool|, planePolygonMap)
      modifies this`pool, this`planePolygonMap
      ensures Handles(|old(pool)|, order) && SortedById(old(pool), order)
      ensures multiset(order) == multiset(wallsToCheck)
      ensures MapState(pool, planePolygonMap) == BuildMap(old(pool), old(planePolygonMap), order)
    {
      ghost var byId := SortById(pool, wallsToCheck);
      var sorted: seq<nat> :| Handles(|pool|, sorted) && SortedById(pool, sorted) && multiset(sorted) == multiset(wallsToCheck);
      order := sorted;
      assert |sorted| == |wallsToCheck| by {
        assert |multiset(sorted)| == |multiset(wallsToCheck)|;
      }
      SeedMap(sorted);
      PlaceSorted(sorted);
    }

    /** The first sorted wall is appended to the map as a new cluster, and map[0][0] gets map id 0. */
    method SeedMap(sorted: seq<nat>)
      requires |sorted| > 0 && Handles(|pool|, sorted) && WellFormedMap(|pool|, planePolygonMap)
      modifies this`pool, this`planePolygonMap
      ensures MapState(pool, planePolygonMap) == Seed(old(pool), old(planePolygonMap), sorted)
    {
      planePolygonMap := planePolygonMap + [[sorted[0]]];
      var first := planePolygonMap[0][0];
      pool := pool[first := pool[first].(planePolygonMapId := 0)];
    }

    /** Every enabled wall of the sorted list is placed in turn; disabled ones are passed over. */
    method PlaceSorted(sorted: seq<nat>)
      requires Handles(|pool|, sorted) && WellFormedMap(|pool|, planePolygonMap)
      modifies this`pool, this`planePolygonMap
      ensures MapState(pool, planePolygonMap) == PlaceAll(MapState(old(pool), old(planePolygonMap)), sorted, |sorted|)
    {
      ghost var start := MapState(pool, planePolygonMap);
      for j := 0 to |sorted|
        invariant MapState(pool, planePolygonMap) == PlaceAll(start, sorted, j)
      {
        var h := sorted[j];
        if !pool[h].enabled {
          continue;
        }
        PlaceInMap(h);
      }
    }

    /**
      Aggregation: for every cluster, gather its members' reflectable lists,
      sort them and drop repeats, and give the result to the representative.
    */
    method UnifyReflectables()
      requires WellFormedMap(|pool|, planePolygonMap)
      modifies this`pool
      ensures pool == Unified(old(pool), planePolygonMap)
    {
      ghost var pool0 := pool;
      for c := 0 to |planePolygonMap|
        invariant |pool| == |pool0|
        invariant pool == UnifyUpTo(pool0, planePolygonMap, c)
      {
        var cluster := planePolygonMap[c];
        var united := GatherReflectables(pool, cluster);
        ghost var gathered := united;
        united := SortAndDedup(united);
        StrictlySortedBySet(united, SortedUnique(gathered));
        pool := pool[cluster[0] := pool[cluster[0]].(directReflectables := united)];
        assert pool == UnifyCluster(UnifyUpTo(pool0, planePolygonMap, c), cluster);
      }
    }
  
    /**
      The first half of set_up_room_model: the enabled walls become
      polygons, the walls join the room and the tree is built into the pool.
    */
    method BuildRoomTree(polygons: seq<Wall>, threshold: real, kernel: Kernel)
      returns (tree: Option<BSPNode>, ghost plan: PolyTree)
      requires forall i :: 0 <= i < |polygons| && polygons[i].enabled ==> polygons[i].id < |walls| + |polygons|
      modifies this`walls, this`pool, this`bspTree
      ensures walls == old(walls) + polygons && bspTree == tree
      ensures GrowsTree(walls, SpatialModel(polygons), tree, old(pool), pool)
      ensures BuiltAlong(walls, SpatialModel(polygons), threshold, kernel, tree, old(pool), pool, plan)
      ensures EnabledIndices(polygons) != [] ==> |PostOrder(tree)| > 0
    {
      var polys := ConstructPolygonSpatialModel(polygons);
      walls := walls + polygons;
      var grown;
      tree, grown, plan := BuildBSP(walls, polys, threshold, kernel, pool);
      bspTree := tree;
      if polys != [] {
        PresentTreeHasWalls(tree);
      }
      pool := grown;
    }

    /**
      The second half of set_up_room_model: harmonise ids, cluster every
      pool wall, run the visibility step, keep a copy of the pool and
      aggregate reflectables. `order` is the sorted handle list of the
      clustering.
    */
    method ClusterPool(reflect: (seq<Wall>, seq<seq<nat>>, nat) -> seq<nat>) returns (ghost order: seq<nat>)
      requires |pool| > 0 && WellFormedMap(|pool|, planePolygonMap)
      modifies this`pool, this`planePolygonMap, this`wallsBsp
      ensures Handles(|old(pool)|, order) && SortedById(Harmonised(old(pool), |walls|), order)
      ensures multiset(order) == multiset(Range(0, |old(pool)|))
      ensures var m := BuildMap(Harmonised(old(pool), |walls|), old(planePolygonMap), order);
        && planePolygonMap == m.clusters
        && wallsBsp == old(wallsBsp) + Visible(m.pool, m.clusters, reflect)
        && pool == Unified(Visible(m.pool, m.clusters, reflect), m.clusters)
    {
      ghost var bsp0, map0 := wallsBsp, planePolygonMap;
      HarmoniseIds();
      ghost var harmonised := pool;
      order := CreatePlanePolygonMap(Range(0, |pool|));
      assert SortedById(harmonised, order);
      ghost var m := MapState(pool, planePolygonMap);
      assert m == BuildMap(harmonised, map0, order);
      pool := Visible(pool, planePolygonMap, reflect);
      wallsBsp := wallsBsp + pool;
      assert wallsBsp == bsp0 + Visible(m.pool, m.clusters, reflect);
      UnifyReflectables();
    }

    /**
      set_up_room_model: builds the tree, clusters the pool and records the
      tree height. `plan` is the partition the builder followed, `built` the
      pool as the builder left it and `order` the sorted handle list of the
      clustering.
    */
    method SetUpRoomModel(polygons: seq<Wall>, threshold: real, kernel: Kernel,
                          reflect: (seq<Wall>, seq<seq<nat>>, nat) -> seq<nat>)
      returns (tree: Option<BSPNode>, ghost plan: PolyTree, ghost built: seq<Wall>, ghost order: seq<nat>)
      requires Valid()
      requires forall i :: 0 <= i < |polygons| && polygons[i].enabled ==> polygons[i].id < |walls| + |polygons|
      requires pool != [] || EnabledIndices(polygons) != []
      modifies this
      ensures Valid()
      ensures walls == old(walls) + polygons && wallsToDisable == old(wallsToDisable)
      ensures GrowsTree(walls, SpatialModel(polygons), tree, old(pool), built)
      ensures BuiltAlong(walls, SpatialModel(polygons), threshold, kernel, tree, old(pool), built, plan)
      ensures tree == bspTree && bspTreeHeight == Height(tree)
      ensures Handles(|built|, order) && SortedById(Harmonised(built, |walls|), order)
      ensures multiset(order) == multiset(Range(0, |built|))
      ensures var m := BuildMap(Harmonised(built, |walls|), old(planePolygonMap), order);
        && planePolygonMap == m.clusters
        && wallsBsp == old(wallsBsp) + Visible(m.pool, m.clusters, reflect)
        && pool == Unified(Visible(m.pool, m.clusters, reflect), m.clusters)
    {
      tree, plan := BuildRoomTree(polygons, threshold, kernel);
      built := pool;
      order := ClusterPool(reflect);
      bspTreeHeight := Height(bspTree);
    }
  }

  /**
    Set up on an empty pool and map: when every pool wall has a parent
    among the room walls and no parent has more than 1000 pieces, the
    harmonised ids are unique, so every enabled pool wall is clustered
    exactly once and walls of different clusters never share a plane.
  */
  lemma FreshMapClustersEveryWall(built: seq<Wall>, nWalls: nat, order: seq<nat>)
    requires |built| > 0 && Handles(|built|, order) && multiset(order) == multiset(Range(0, |built|))
    requires forall j :: 0 <= j < |built| ==> built[j].parentId < nWalls
    requires forall p :: ParentRank(built, p, |built|) <= 1000
    ensures var pool := Harmonised(built, nWalls);
      var m := BuildMap(pool, [], order);
      && (forall h :: 0 <= h < |pool| && pool[h].enabled ==> InMap(m.clusters, h))
      && DistinctHandles(m.clusters)
      && Coplanar(pool, m.clusters)
      && (forall c1, m1, c2, m2 :: (0 <= c1 < |m.clusters| && 0 <= m1 < |m.clusters[c1]| &&
                                    0 <= c2 < |m.clusters| && 0 <= m2 < |m.clusters[c2]| && c1 != c2) ==>
            !SamePlane(pool[m.clusters[c1][m1]], pool[m.clusters[c2][m2]]))
  {
    var pool := Harmonised(built, nWalls);
    HarmonisedIdsUnique(built, nWalls);
    IncreasingNoRepeats(Range(0, |built|));
    assert |order| == |built| by {
      assert |multiset(order)| == |multiset(Range(0, |built|))|;
    }
    BuildMapProperties(pool, order);
    BuildMapWithUniqueIds(pool, order);
    forall h | 0 <= h < |pool| && pool[h].enabled ensures InMap(BuildMap(pool, [], order).clusters, h) {
      assert Range(0, |built|)[h] == h;
      assert h in multiset(order);
      var p :| 0 <= p < |order| && order[p] == h;
    }
  }
}

=== FILE: splitting_plane.dfy ===
/**
  The decisions build_BSP takes for one set of polygons: whether the
  subspace they span is convex (leaf rule), the Ranta-Eskola tallies and
  ratio r(p) of every candidate plane, the choice of the partition plane,
  and the sorting of the other polygons into front, on-plane and back
  buckets.
*/
module SplittingPlane {
  import opened Options
  import opened Geometry

  /* ---------------- Convexity (leaf rule) ---------------- */

  /** No corner of any polygon lies strictly below the plane of another polygon. */
  predicate IsConvex(polys: seq<Polygon>, sideOf: (Plane, Point) -> Side) {
    forall i, j, k :: 0 <= i < |polys| && 0 <= j < |polys| && i != j && 0 <= k < |polys[j].points| ==>
      sideOf(polys[i].plane, polys[j].points[k]) != Below
  }

  /** The convexity scan of build_BSP, leaving all three loops at the first corner found below. */
  method CheckConvex(polys: seq<Polygon>, sideOf: (Plane, Point) -> Side) returns (convex: bool)
    ensures convex <==> IsConvex(polys, sideOf)
  {
    convex := true;
    var i := 0;
    while i < |polys|
      invariant 0 <= i <= |polys|
      invariant convex
      invariant forall i', j, k :: 0 <= i' < i && 0 <= j < |polys| && i' != j && 0 <= k < |polys[j].points| ==>
        sideOf(polys[i'].plane, polys[j].points[k]) != Below
    {
      var j := 0;
      while j < |polys|
        invariant 0 <= j <= |polys|
        invariant convex
        invariant forall j', k :: 0 <= j' < j && i != j' && 0 <= k < |polys[j'].points| ==>
          sideOf(polys[i].plane, polys[j'].points[k]) != Below
      {
        if i != j {
          var k := 0;
          while k < |polys[j].points|
            invariant 0 <= k <= |polys[j].points|
            invariant convex
            invariant forall k' :: 0 <= k' < k ==> sideOf(polys[i].plane, polys[j].points[k']) != Below
          {
            if sideOf(polys[i].plane, polys[j].points[k]) == Below {
              convex := false;
              break;
            }
            k := k + 1;
          }
          if !convex {
            break;
          }
        }
        j := j + 1;
      }
      if !convex {
        break;
      }
      i := i + 1;
    }
  }

  /* ---------------- Ranta-Eskola tallies ---------------- */

  /** Where another polygon lies relative to a candidate plane. */
  datatype Placement = Behind | InFront | Crosses

  /**
    Behind: some corner below and none above. Crosses: corners on both
    sides. InFront: otherwise, including a polygon entirely on the plane.
  */
  function PlacementOf(sideOf: (Plane, Point) -> Side, plane: Plane, points: seq<Point>): (r: Placement)
    ensures r != InFront <==> exists k :: 0 <= k < |points| && sideOf(plane, points[k]) == Below
    ensures r == Behind ==> forall k :: 0 <= k < |points| ==> sideOf(plane, points[k]) != Above
  {
    var below := exists k :: 0 <= k < |points| && sideOf(plane, points[k]) == Below;
    var above := exists k :: 0 <= k < |points| && sideOf(plane, points[k]) == Above;
    if below && !above then Behind
    else if below && above then Crosses
    else InFront
  }

  /** How many of polys[..upto], other than polys[i], have placement pl against the plane of polys[i]. */
  function CountPlacement(polys: seq<Polygon>, sideOf: (Plane, Point) -> Side, i: nat, pl: Placement, upto: nat): nat
    requires i < |polys| && upto <= |polys|
  {
    if upto == 0 then 0
    else
      CountPlacement(polys, sideOf, i, pl, upto - 1)
      + (if upto - 1 != i && PlacementOf(sideOf, polys[i].plane, polys[upto - 1].points) == pl then 1 else 0)
  }

  /** One row of the measures table: (wall index, behind, front, crosses). */
  datatype Measure = Measure(wallId: nat, behind: nat, front: nat, crosses: nat)

  function MeasureOf(polys: seq<Polygon>, sideOf: (Plane, Point) -> Side, i: nat): Measure
    requires i < |polys|
  {
    Measure(i,
      CountPlacement(polys, sideOf, i, Behind, |polys|),
      CountPlacement(polys, sideOf, i, InFront, |polys|),
      CountPlacement(polys, sideOf, i, Crosses, |polys|))
  }

  /**
    The measures table build_BSP computes: one row per candidate, in
    polygon order, whose three tallies count every other polygon once.
  */
  function Measures(polys: seq<Polygon>, sideOf: (Plane, Point) -> Side): (r: seq<Measure>)
    ensures |r| == |polys|
    ensures forall i :: 0 <= i < |r| ==> r[i].wallId == i && r[i].behind + r[i].front + r[i].crosses == |polys| - 1
  {
    AllCountsPartition(polys, sideOf);
    seq(|polys|, i requires 0 <= i < |polys| => MeasureOf(polys, sideOf, i))
  }

  /** The tally loops of build_BSP, classifying each other polygon corner by corner. */
  method Tally(polys: seq<Polygon>, sideOf: (Plane, Point) -> Side) returns (measures: seq<Measure>)
    ensures measures == Measures(polys, sideOf)
  {
    measures := [];
    var tempId := 0;
    while tempId < |polys|
      invariant 0 <= tempId <= |polys|
      invariant measures == Measures(polys, sideOf)[..tempId]
    {
      var i := tempId;
      measures := measures + [Measure(tempId, 0, 0, 0)];
      var j := 0;
      while j < |polys|
        invariant 0 <= j <= |polys|
        invariant |measures| == i + 1
        invariant measures[..i] == Measures(polys, sideOf)[..i]
        invariant measures[i] == Measure(i,
          CountPlacement(polys, sideOf, i, Behind, j),
          CountPlacement(polys, sideOf, i, InFront, j),
          CountPlacement(polys, sideOf, i, Crosses, j))
      {
        if i != j {
          var behind := false;
          var inFront := false;
          var k := 0;
          while k < |polys[j].points|
            invariant 0 <= k <= |polys[j].points|
            invariant behind <==> exists k' :: 0 <= k' < k && sideOf(polys[i].plane, polys[j].points[k']) == Below
            invariant inFront <==> exists k' :: 0 <= k' < k && sideOf(polys[i].plane, polys[j].points[k']) == Above
          {
            if sideOf(polys[i].plane, polys[j].points[k]) == Below {
              behind := true;
            }
            if sideOf(polys[i].plane, polys[j].points[k]) == Above {
              inFront := true;
            }
            k := k + 1;
          }
          var m := measures[i];
          if behind && !inFront {
            measures := measures[i := m.(behind := m.behind + 1)];
          }
          if !behind && inFront {
            measures := measures[i := m.(front := m.front + 1)];
          }
          if behind && inFront {
            measures := measures[i := m.(crosses := m.crosses + 1)];
          }
          if !behind && !inFront {
            measures := measures[i := m.(front := m.front + 1)];
          }
        }
        j := j + 1;
      }
      tempId := tempId + 1;
    }
  }

  lemma {:induction false} CountsPartition(polys: seq<Polygon>, sideOf: (Plane, Point) -> Side, i: nat, upto: nat)
    requires i < |polys| && upto <= |polys|
    ensures CountPlacement(polys, sideOf, i, Behind, upto) + CountPlacement(polys, sideOf, i, InFront, upto)
            + CountPlacement(polys, sideOf, i, Crosses, upto) == if i < upto then upto - 1 else upto
  {
    if upto > 0 {
      CountsPartition(polys, sideOf, i, upto - 1);
    }
  }

  /** Every other polygon increments exactly one tally of each candidate: the tallies sum to n - 1. */
  lemma AllCountsPartition(polys: seq<Polygon>, sideOf: (Plane, Point) -> Side)
    ensures forall i :: 0 <= i < |polys| ==>
      var m := MeasureOf(polys, sideOf, i);
      m.behind + m.front + m.crosses == |polys| - 1
  {
    forall i | 0 <= i < |polys| {
      CountsPartition(polys, sideOf, i, |polys|);
    }
  }

  lemma {:induction false} NoneBehindNorCrossing(polys: seq<Polygon>, sideOf: (Plane, Point) -> Side, i: nat, upto: nat)
    requires i < |polys| && upto <= |polys|
    ensures CountPlacement(polys, sideOf, i, Behind, upto) + CountPlacement(polys, sideOf, i, Crosses, upto) == 0
       <==> forall j, k :: 0 <= j < upto && j != i && 0 <= k < |polys[j].points| ==>
              sideOf(polys[i].plane, polys[j].points[k]) != Below
  {
    if upto > 0 {
      NoneBehindNorCrossing(polys, sideOf, i, upto - 1);
      var j := upto - 1;
      if j != i && PlacementOf(sideOf, polys[i].plane, polys[j].points) != InFront {
        var k :| 0 <= k < |polys[j].points| && sideOf(polys[i].plane, polys[j].points[k]) == Below;
      }
    }
  }

  /**
    The leaf rule and the tallies agree: the polygons span a convex
    subspace exactly when no candidate has another polygon behind it or
    crossing it.
  */
  lemma ConvexIffNothingBehind(polys: seq<Polygon>, sideOf: (Plane, Point) -> Side)
    ensures IsConvex(polys, sideOf) <==>
      forall i :: 0 <= i < |polys| ==> Measures(polys, sideOf)[i].behind + Measures(polys, sideOf)[i].crosses == 0
  {
    if IsConvex(polys, sideOf) {
      forall i | 0 <= i < |polys|
        ensures Measures(polys, sideOf)[i].behind + Measures(polys, sideOf)[i].crosses == 0
      {
        NoneBehindNorCrossing(polys, sideOf, i, |polys|);
      }
    } else {
      var i, j, k :| 0 <= i < |polys| && 0 <= j < |polys| && i != j && 0 <= k < |polys[j].points| &&
        sideOf(polys[i].plane, polys[j].points[k]) == Below;
      NoneBehindNorCrossing(polys, sideOf, i, |polys|);
      assert Measures(polys, sideOf)[i].behind + Measures(polys, sideOf)[i].crosses != 0;
    }
  }

  /* ---------------- r(p) and the choice of the partition plane ---------------- */

  function MinReal(a: real, b: real): real {
    if a <= b then a else b
  }

  /** A quotient of two positive tallies is at most 1 exactly when the numerator is at most the denominator. */
  lemma QuotientAtMostOne(b: real, f: real)
    requires b > 0.0 && f > 0.0
    ensures b / f <= 1.0 <==> b <= f
    ensures b / f >= 1.0 <==> b >= f
  {
    var q := b / f;
    assert q * f == b;
    if q > 1.0 {
      assert q * f > 1.0 * f;
    }
    if q < 1.0 {
      assert q * f < 1.0 * f;
    }
  }

  /** r(p): 0 when either tally is 0, otherwise min(b / f, f / b). */
  function Ratio(m: Measure): (r: real)
    ensures 0.0 <= r <= 1.0
  {
    if m.behind == 0 then 0.0
    else if m.front == 0 then 0.0
    else
      QuotientAtMostOne(m.behind as real, m.front as real);
      QuotientAtMostOne(m.front as real, m.behind as real);
      MinReal(m.behind as real / m.front as real, m.front as real / m.behind as real)
  }

  /** r(p) is 0 exactly when a tally is 0, and 1 exactly for a perfectly balanced plane. */
  lemma RatioExtremes(m: Measure)
    ensures Ratio(m) == 0.0 <==> m.behind == 0 || m.front == 0
    ensures Ratio(m) == 1.0 <==> m.behind == m.front && m.front > 0
  {
    if m.behind > 0 && m.front > 0 {
      var b, f := m.behind as real, m.front as real;
      QuotientAtMostOne(b, f);
      QuotientAtMostOne(f, b);
    }
  }

  /** The threshold test in integer form: r(p) >= t exactly when min(b, f) >= t * max(b, f). */
  lemma RatioAgainstThreshold(m: Measure, t: real)
    requires m.behind > 0 && m.front > 0
    ensures Ratio(m) >= t <==>
      (if m.behind <= m.front then m.behind as real >= t * m.front as real else m.front as real >= t * m.behind as real)
  {
    var b, f := m.behind as real, m.front as real;
    QuotientAtMostOne(b, f);
    QuotientAtMostOne(f, b);
    if b <= f {
      assert (b / f) * f == b;
      if b / f >= t {
        assert (b / f) * f >= t * f;
      } else {
        assert (b / f) * f < t * f;
      }
    } else {
      assert (f / b) * b == f;
      if f / b >= t {
        assert (f / b) * b >= t * b;
      } else {
        assert (f / b) * b < t * b;
      }
    }
  }

  predicate Qualifies(m: Measure, threshold: real) {
    Ratio(m) >= threshold
  }

  /** |r(p) - threshold|. */
  function Distance(m: Measure, threshold: real): real {
    if Ratio(m) >= threshold then Ratio(m) - threshold else threshold - Ratio(m)
  }

  /**
    c is a partition plane build_BSP may choose: if some candidate meets the
    threshold, c meets it and no qualifying candidate has fewer crossings;
    otherwise c is as close to the threshold as any candidate.
  */
  predicate IsPartitionChoice(ms: seq<Measure>, threshold: real, c: nat) {
    && c < |ms|
    && if exists q :: 0 <= q < |ms| && Qualifies(ms[q], threshold) then
         && Qualifies(ms[c], threshold)
         && forall q :: 0 <= q < |ms| && Qualifies(ms[q], threshold) ==> ms[c].crosses <= ms[q].crosses
       else
         forall q :: 0 <= q < |ms| ==> Distance(ms[c], threshold) <= Distance(ms[q], threshold)
  }

  /** One row of the r_p table: (wall index, r(p), crosses). */
  datatype RankedPlane = RankedPlane(wallId: nat, ratio: real, crosses: nat)

  /**
    The selection of build_BSP. The source sorts the r_p table with an
    unstable sort and takes the first row meeting the threshold (or, failing
    that, the row closest to it); among rows that tie, any may come first,
    so the model picks any of the best rows.
  */
  method SelectPartition(ms: seq<Measure>, threshold: real) returns (wallId: nat)
    requires |ms| > 0
    requires forall q :: 0 <= q < |ms| ==> ms[q].wallId == q
    ensures IsPartitionChoice(ms, threshold, wallId)
  {
    var rp: seq<RankedPlane> := [];
    for q := 0 to |ms|
      invariant |rp| == q
      invariant forall q' :: 0 <= q' < q ==> rp[q'] == RankedPlane(ms[q'].wallId, Ratio(ms[q']), ms[q'].crosses)
    {
      var behind, inFront := ms[q].behind, ms[q].front;
      var r := 0.0;
      if behind == 0 {
        r := 0.0;
      } else if inFront == 0 {
        r := 0.0;
      } else {
        r := MinReal(behind as real / inFront as real, inFront as real / behind as real);
      }
      rp := rp + [RankedPlane(ms[q].wallId, r, ms[q].crosses)];
    }
    // the fewest crossings among rows meeting the threshold
    var found := false;
    var best := 0;
    for q := 0 to |rp|
      invariant best < |rp|
      invariant found <==> exists q' :: 0 <= q' < q && Qualifies(ms[q'], threshold)
      invariant found ==> Qualifies(ms[best], threshold)
      invariant found ==> forall q' :: 0 <= q' < q && Qualifies(ms[q'], threshold) ==> rp[best].crosses <= rp[q'].crosses
    {
      if rp[q].ratio >= threshold && (!found || rp[q].crosses < rp[best].crosses) {
        found := true;
        best := q;
      }
    }
    if found {
      wallId :| 0 <= wallId < |rp| && rp[wallId].ratio >= threshold && rp[wallId].crosses == rp[best].crosses;
      wallId := rp[wallId].wallId;
    } else {
      // fall back to the row closest to the threshold
      var closest := 0;
      for q := 0 to |rp|
        invariant closest < |rp|
        invariant forall q' :: 0 <= q' < q ==> Distance(ms[closest], threshold) <= Distance(ms[q'], threshold)
      {
        if Distance(ms[q], threshold) < Distance(ms[closest], threshold) {
          closest := q;
        }
      }
      wallId :| 0 <= wallId < |rp| && Distance(ms[wallId], threshold) == Distance(ms[closest], threshold);
      wallId := rp[wallId].wallId;
    }
  }

  /** The measures and the selection of build_BSP together: a valid partition choice for polys. */
  method ChoosePartition(polys: seq<Polygon>, sideOf: (Plane, Point) -> Side, threshold: real) returns (wallId: nat)
    requires |polys| > 0
    ensures wallId < |polys| && IsPartitionChoice(Measures(polys, sideOf), threshold, wallId)
  {
    var measures := Tally(polys, sideOf);
    assert forall q :: 0 <= q < |measures| ==> measures[q].wallId == q;
    wallId := SelectPartition(measures, threshold);
  }

  /**
    Why any best row may be chosen: whatever order an unstable sort by
    crossings leaves, the first row meeting the threshold is a partition
    choice; whatever order a sort by distance leaves, its first row is a
    choice when no row qualifies.
  */
  lemma SortedScanIsChoice(ms: seq<Measure>, threshold: real, byCrosses: seq<nat>, byDistance: seq<nat>, first: nat)
    requires |ms| > 0
    requires |byCrosses| == |ms| && |byDistance| == |ms|
    requires forall p :: 0 <= p < |ms| ==> byCrosses[p] < |ms| && byDistance[p] < |ms|
    requires forall q :: 0 <= q < |ms| ==> q in byCrosses && q in byDistance
    requires forall p1, p2 :: 0 <= p1 <= p2 < |ms| ==> ms[byCrosses[p1]].crosses <= ms[byCrosses[p2]].crosses
    requires forall p1, p2 :: 0 <= p1 <= p2 < |ms| ==>
      Distance(ms[byDistance[p1]], threshold) <= Distance(ms[byDistance[p2]], threshold)
    requires first <= |ms|
    requires forall p :: 0 <= p < first ==> !Qualifies(ms[byCrosses[p]], threshold)
    requires first < |ms| ==> Qualifies(ms[byCrosses[first]], threshold)
    ensures first < |ms| ==> IsPartitionChoice(ms, threshold, byCrosses[first])
    ensures first == |ms| ==> IsPartitionChoice(ms, threshold, byDistance[0])
  {
    if first < |ms| {
      forall q | 0 <= q < |ms| && Qualifies(ms[q], threshold)
        ensures ms[byCrosses[first]].crosses <= ms[q].crosses
      {
        assert q in byCrosses;
        var p :| 0 <= p < |ms| && byCrosses[p] == q;
      }
    } else {
      forall q | 0 <= q < |ms|
        ensures !Qualifies(ms[q], threshold)
        ensures Distance(ms[byDistance[0]], threshold) <= Distance(ms[q], threshold)
      {
        assert q in byCrosses && q in byDistance;
        var p :| 0 <= p < |ms| && byCrosses[p] == q;
        var p' :| 0 <= p' < |ms| && byDistance[p'] == q;
      }
    }
  }

  /* ---------------- Buckets ---------------- */

  /** The three polygon lists build_BSP collects around its partition plane. */
  datatype Buckets = Buckets(above: seq<Polygon>, on: seq<Polygon>, below: seq<Polygon>)

  /** What split() appends for polys[..upto], skipping the partition polygon polys[c]. */
  function SplitPieces(polys: seq<Polygon>, c: nat, plane: Plane, split: (Polygon, Plane) -> Pieces, upto: nat): (b: Buckets)
    requires upto <= |polys|
    ensures var others := if c < upto then upto - 1 else upto;
      |b.above| <= others && |b.on| <= others && |b.below| <= others
  {
    if upto == 0 then Buckets([], [], [])
    else
      var b := SplitPieces(polys, c, plane, split, upto - 1);
      var p := polys[upto - 1];
      if upto - 1 == c then b
      else
        var pieces := split(p, plane);
        Buckets(b.above + PieceList(p, pieces.above), b.on + PieceList(p, pieces.on), b.below + PieceList(p, pieces.below))
  }

  /** Pieces keep the parent of the polygon they were split from. */
  lemma {:induction false} SplitPiecesKeepParents(polys: seq<Polygon>, c: nat, plane: Plane, split: (Polygon, Plane) -> Pieces, upto: nat, nWalls: nat)
    requires c < |polys| && upto <= |polys|
    requires ParentsWithin(polys, nWalls)
    ensures var b := SplitPieces(polys, c, plane, split, upto);
      ParentsWithin(b.above, nWalls) && ParentsWithin(b.on, nWalls) && ParentsWithin(b.below, nWalls)
  {
    if upto > 0 && upto - 1 != c {
      SplitPiecesKeepParents(polys, c, plane, split, upto - 1, nWalls);
      var b := SplitPieces(polys, c, plane, split, upto - 1);
      var p := polys[upto - 1];
      var pieces := split(p, plane);
      AppendKeepsParents(b.above, p, pieces.above, nWalls);
      AppendKeepsParents(b.on, p, pieces.on, nWalls);
      AppendKeepsParents(b.below, p, pieces.below, nWalls);
    } else if upto > 0 {
      SplitPiecesKeepParents(polys, c, plane, split, upto - 1, nWalls);
    }
  }

  lemma AppendKeepsParents(ps: seq<Polygon>, p: Polygon, piece: Option<seq<Point>>, nWalls: nat)
    requires ParentsWithin(ps, nWalls) && p.parentId < nWalls
    ensures ParentsWithin(ps + PieceList(p, piece), nWalls)
  {
  }

  /**
    The bucket loop of build_BSP: split every polygon but the partition
    polygon against its plane; the partition polygon heads the on-plane
    bucket.
  */
  method CollectBuckets(polys: seq<Polygon>, c: nat, split: (Polygon, Plane) -> Pieces, ghost nWalls: nat)
    returns (above: seq<Polygon>, on: seq<Polygon>, below: seq<Polygon>)
    requires c < |polys|
    requires ParentsWithin(polys, nWalls)
    ensures var b := SplitPieces(polys, c, polys[c].plane, split, |polys|);
      above == b.above && on == [polys[c]] + b.on && below == b.below
    ensures |above| < |polys| && |below| < |polys|
    ensures ParentsWithin(above, nWalls) && ParentsWithin(on, nWalls) && ParentsWithin(below, nWalls)
  {
    var partition := polys[c];
    var aboveList, onList, belowList := [], [], [];
    for i := 0 to |polys|
      invariant SplitPieces(polys, c, partition.plane, split, i) == Buckets(aboveList, onList, belowList)
    {
      if i == c {
        continue;
      }
      var pieces := split(polys[i], partition.plane);
      aboveList := aboveList + PieceList(polys[i], pieces.above);
      onList := onList + PieceList(polys[i], pieces.on);
      belowList := belowList + PieceList(polys[i], pieces.below);
    }
    SplitPiecesKeepParents(polys, c, partition.plane, split, |polys|, nWalls);
    above, on, below := aboveList, [partition] + onList, belowList;
  }
}

=== FILE: traits.dfy ===
/**
  unit::generate_traits: the prerequisite and exclusion filter over a
  unit type's possible traits, and the loop that fills the unit's traits
  with random candidates up to the type's trait count. Trait lists such as
  require_traits arrive already split into ids.
*/
module Traits {

  /** A trait as the unit type lists it. */
  datatype Trait = Trait(id: string, require: seq<string>, exclude: seq<string>, availability: string)

  /** Some current trait has this id. */
  predicate Holds(current: seq<Trait>, id: string) {
    exists k :: 0 <= k < |current| && current[k].id == id
  }

  /** The exclude lists of the current traits, concatenated in order. */
  function HeldExclusions(current: seq<Trait>): seq<string> {
    if current == [] then []
    else HeldExclusions(current[..|current| - 1]) + current[|current| - 1].exclude
  }

  predicate RequirementsMet(current: seq<Trait>, t: Trait) {
    forall s :: s in t.require ==> Holds(current, s)
  }

  /** Some id in t's own exclude list or in a current trait's exclude list is held, or is t itself. */
  predicate Excluded(current: seq<Trait>, t: Trait) {
    exists s :: s in t.exclude + HeldExclusions(current) && (Holds(current, s) || s == t.id)
  }

  /** t passes the filter: not yet held, its requirements held, nothing excludes it. */
  predicate Eligible(current: seq<Trait>, t: Trait) {
    !Holds(current, t.id) && RequirementsMet(current, t) && !Excluded(current, t)
  }

  /** The final gate: nothing when only must-have traits are wanted; leaders take only "any" traits. */
  predicate Offered(mustHaveOnly: bool, canRecruit: bool, t: Trait) {
    !mustHaveOnly && (!canRecruit || t.availability == "any")
  }

  /** The candidate list: the possible traits that pass, in their listed order. */
  function Candidates(current: seq<Trait>, possible: seq<Trait>, mustHaveOnly: bool, canRecruit: bool): (r: seq<Trait>)
    ensures |r| <= |possible|
    ensures forall k :: 0 <= k < |r| ==> r[k] in possible && Eligible(current, r[k]) && Offered(mustHaveOnly, canRecruit, r[k])
  {
    if possible == [] then []
    else
      var init := Candidates(current, possible[..|possible| - 1], mustHaveOnly, canRecruit);
      var t := possible[|possible| - 1];
      if Eligible(current, t) && Offered(mustHaveOnly, canRecruit, t) then init + [t] else init
  }

  // ---------------------------------------------------------------------
  // Properties of the filter

  lemma {:induction false} HeldExclusionsHas(current: seq<Trait>, s: string)
    ensures s in HeldExclusions(current) <==> exists k :: 0 <= k < |current| && s in current[k].exclude
  {
    if current != [] {
      var init := current[..|current| - 1];
      HeldExclusionsHas(init, s);
      if exists k :: 0 <= k < |init| && s in init[k].exclude {
        var k :| 0 <= k < |init| && s in init[k].exclude;
        assert current[k] == init[k];
      }
      if exists k :: 0 <= k < |current| && s in current[k].exclude {
        var k :| 0 <= k < |current| && s in current[k].exclude;
        if k < |init| {
          assert current[k] == init[k];
        }
      }
    }
  }

  /** A trait is a candidate exactly when it is possible, passes the filter and the gate. */
  lemma {:induction false} CandidatesExactly(current: seq<Trait>, possible: seq<Trait>, mustHaveOnly: bool, canRecruit: bool, t: Trait)
    ensures t in Candidates(current, possible, mustHaveOnly, canRecruit) <==>
      t in possible && Eligible(current, t) && Offered(mustHaveOnly, canRecruit, t)
  {
    if possible != [] {
      var init := possible[..|possible| - 1];
      CandidatesExactly(current, init, mustHaveOnly, canRecruit, t);
      assert possible == init + [possible[|possible| - 1]];
    }
  }

  /** No trait the unit already has is a candidate. */
  lemma CandidateNotHeld(current: seq<Trait>, possible: seq<Trait>, mustHaveOnly: bool, canRecruit: bool, t: Trait)
    requires t in Candidates(current, possible, mustHaveOnly, canRecruit)
    ensures forall k :: 0 <= k < |current| ==> current[k].id != t.id
  {
    CandidatesExactly(current, possible, mustHaveOnly, canRecruit, t);
  }

  /** Every trait a candidate requires is held. */
  lemma CandidateRequirementsHeld(current: seq<Trait>, possible: seq<Trait>, mustHaveOnly: bool, canRecruit: bool, t: Trait)
    requires t in Candidates(current, possible, mustHaveOnly, canRecruit)
    ensures forall s :: s in t.require ==> exists k :: 0 <= k < |current| && current[k].id == s
  {
    CandidatesExactly(current, possible, mustHaveOnly, canRecruit, t);
  }

  /**
    An id in the trait's own exclude list, or in the exclude list of any
    current trait, that is held or is the trait's own id keeps it out.
  */
  lemma ExclusionRejects(current: seq<Trait>, possible: seq<Trait>, mustHaveOnly: bool, canRecruit: bool, t: Trait, s: string)
    requires s in t.exclude || exists k :: 0 <= k < |current| && s in current[k].exclude
    requires Holds(current, s) || s == t.id
    ensures t !in Candidates(current, possible, mustHaveOnly, canRecruit)
  {
    HeldExclusionsHas(current, s);
    assert s in t.exclude + HeldExclusions(current);
    CandidatesExactly(current, possible, mustHaveOnly, canRecruit, t);
  }

  /** With only must-have traits wanted there is no candidate at all. */
  lemma {:induction false} MustHaveOnlyNoCandidates(current: seq<Trait>, possible: seq<Trait>, canRecruit: bool)
    ensures Candidates(current, possible, true, canRecruit) == []
  {
    if possible != [] {
      MustHaveOnlyNoCandidates(current, possible[..|possible| - 1], canRecruit);
    }
  }

  /** A unit that can recruit is offered only traits available to "any". */
  lemma LeaderOfferedAnyOnly(current: seq<Trait>, possible: seq<Trait>, mustHaveOnly: bool, t: Trait)
    requires t in Candidates(current, possible, mustHaveOnly, true)
    ensures t.availability == "any"
  {
    CandidatesExactly(current, possible, mustHaveOnly, true, t);
  }

  // ---------------------------------------------------------------------
  // The filter as the source runs it

  /** The "already" scan: stops at the first current trait with this id. */
  method AlreadyHeld(current: seq<Trait>, tid: string) returns (already: bool)
    ensures already <==> Holds(current, tid)
  {
    already := false;
    for k := 0 to |current|
      invariant !already
      invariant forall k' :: 0 <= k' < k ==> current[k'].id != tid
    {
      if current[k].id == tid {
        already := true;
        break;
      }
    }
  }

  /** The trait's own exclude list followed by those of the current traits. */
  method GatherExclusions(current: seq<Trait>, t: Trait) returns (temp: seq<string>)
    ensures temp == t.exclude + HeldExclusions(current)
  {
    temp := t.exclude;
    for k := 0 to |current|
      invariant temp == t.exclude + HeldExclusions(current[..k])
    {
      var mod := current[k];
      assert current[..k + 1][..k] == current[..k];
      if mod.exclude != [] {
        for e := 0 to |mod.exclude|
          invariant temp == t.exclude + HeldExclusions(current[..k]) + mod.exclude[..e]
        {
          assert mod.exclude[..e + 1] == mod.exclude[..e] + [mod.exclude[e]];
          temp := temp + [mod.exclude[e]];
        }
        assert mod.exclude[..|mod.exclude|] == mod.exclude;
      }
    }
    assert current[..|current|] == current;
  }

  /** Whether some current trait has id s, scanning all of them. */
  method HasTrait(current: seq<Trait>, s: string) returns (has: bool)
    ensures has <==> Holds(current, s)
  {
    has := false;
    for k := 0 to |current|
      invariant has <==> exists k' :: 0 <= k' < k && current[k'].id == s
    {
      if current[k].id == s {
        has := true;
      }
    }
  }

  /** The requirement check: stops at the first required id not held. */
  method CheckRequirements(current: seq<Trait>, require: seq<string>) returns (met: bool)
    ensures met <==> forall s :: s in require ==> Holds(current, s)
  {
    met := true;
    for r := 0 to |require|
      invariant met
      invariant forall r' :: 0 <= r' < r ==> Holds(current, require[r'])
    {
      var has := HasTrait(current, require[r]);
      if !has {
        met := false;
        break;
      }
    }
  }

  /** The exclusion check: stops at the first listed id that is held or is the trait's own. */
  method CheckExclusions(current: seq<Trait>, tid: string, temp: seq<string>) returns (ok: bool)
    ensures ok <==> forall s :: s in temp ==> !Holds(current, s) && s != tid
  {
    ok := true;
    for r := 0 to |temp|
      invariant ok
      invariant forall r' :: 0 <= r' < r ==> !Holds(current, temp[r']) && temp[r'] != tid
    {
      var excluded := HasTrait(current, temp[r]);
      if tid == temp[r] {
        excluded := true;
      }
      if excluded {
        ok := false;
        break;
      }
    }
  }

  /** One round's candidate list, built as the source builds it. */
  method CollectCandidates(current: seq<Trait>, possible: seq<Trait>, mustHaveOnly: bool, canRecruit: bool)
    returns (candidates: seq<Trait>)
    ensures candidates == Candidates(current, possible, mustHaveOnly, canRecruit)
  {
    candidates := [];
    for i := 0 to |possible|
      invariant candidates == Candidates(current, possible[..i], mustHaveOnly, canRecruit)
    {
      var t := possible[i];
      assert possible[..i + 1][..i] == possible[..i];
      var already := AlreadyHeld(current, t.id);
      if already {
        continue;
      }
      var temp := GatherExclusions(current, t);
      var met := CheckRequirements(current, t.require);
      if !met {
        continue;
      }
      var ok := CheckExclusions(current, t.id, temp);
      if !ok {
        continue;
      }
      if !mustHaveOnly && (!canRecruit || t.availability == "any") {
        candidates := candidates + [t];
      }
    }
    assert possible[..|possible|] == possible;
  }

  /** Every trait after the first `base` was a candidate when it was added. */
  predicate AddedFromCandidates(base: nat, mods: seq<Trait>, possible: seq<Trait>, mustHaveOnly: bool, canRecruit: bool) {
    forall k :: base <= k < |mods| ==> mods[k] in Candidates(mods[..k], possible, mustHaveOnly, canRecruit)
  }

  lemma AddCandidate(base: nat, mods: seq<Trait>, possible: seq<Trait>, mustHaveOnly: bool, canRecruit: bool, t: Trait)
    requires base <= |mods| && AddedFromCandidates(base, mods, possible, mustHaveOnly, canRecruit)
    requires t in Candidates(mods, possible, mustHaveOnly, canRecruit)
    ensures AddedFromCandidates(base, mods + [t], possible, mustHaveOnly, canRecruit)
  {
    var mods' := mods + [t];
    forall k | base <= k < |mods'| ensures mods'[k] in Candidates(mods'[..k], possible, mustHaveOnly, canRecruit) {
      assert mods'[..k] == mods[..k] || k == |mods|;
      if k == |mods| {
        assert mods'[..k] == mods;
      }
    }
  }

  /** The unit's part that generate_traits reads and writes. */
  class Unit {
    /** The unit's trait modifications, in the order they were added. */
    var modifications: seq<Trait>
    var randomTraits: bool
    var canRecruit: bool

    constructor (modifications: seq<Trait>, canRecruit: bool)
      ensures this.modifications == modifications && this.canRecruit == canRecruit && randomTraits
    {
      this.modifications := modifications;
      this.canRecruit := canRecruit;
      randomTraits := true;
    }

    /**
      Adds random candidates, one per round, until the unit has maxTraits
      traits or no candidate is left; the random pick is any index in range.
    */
    method GenerateTraits(mustHaveOnly: bool, possible: seq<Trait>, maxTraits: int)
      modifies this`modifications, this`randomTraits
      ensures !randomTraits
      ensures |modifications| >= |old(modifications)| && modifications[..|old(modifications)|] == old(modifications)
      ensures |modifications| > |old(modifications)| ==> |modifications| <= maxTraits
      ensures AddedFromCandidates(|old(modifications)|, modifications, possible, mustHaveOnly, canRecruit)
      ensures |modifications| < maxTraits ==> Candidates(modifications, possible, mustHaveOnly, canRecruit) == []
      ensures mustHaveOnly ==> modifications == old(modifications)
    {
      ghost var mods0 := modifications;
      var nbTraits := |modifications|;
      while nbTraits < maxTraits
        invariant nbTraits == |modifications| >= |mods0| && modifications[..|mods0|] == mods0
        invariant |modifications| > |mods0| ==> |modifications| <= maxTraits
        invariant AddedFromCandidates(|mods0|, modifications, possible, mustHaveOnly, canRecruit)
        invariant mustHaveOnly ==> modifications == mods0
        decreases maxTraits - nbTraits
      {
        var current := modifications;
        var candidates := CollectCandidates(current, possible, mustHaveOnly, canRecruit);
        if mustHaveOnly {
          MustHaveOnlyNoCandidates(current, possible, canRecruit);
        }
        if candidates == [] {
          break;
        }
        var num :| 0 <= num < |candidates|;
        AddCandidate(|mods0|, current, possible, mustHaveOnly, canRecruit, candidates[num]);
        modifications := modifications + [candidates[num]];
        assert modifications[..|mods0|] == current[..|mods0|];
        candidates := candidates[..num] + candidates[num + 1..];
        nbTraits := nbTraits + 1;
      }
      randomTraits := false;
    }
  }
}

=== FILE: walls.dfy ===
/**
  Room walls (rts::wall) and the two conversions between walls and the
  kernel's polygons: construct_polygonspatial_model and
  construct_rtswall_model.
*/
module Walls {
  import opened Options
  import opened Geometry

  /**
    A wall. `parent` stands for the parent pointer: the index of the parent
    in the room's wall list. `directReflectables` holds handles (pool
    indices) of the walls whose reflections this wall can see.
  */
  datatype Wall = Wall(
    id: nat,
    corners: seq<Point>,
    material: nat,
    enabled: bool,
    n: Vec3,
    doubleN: Vec3,
    d: int,
    parentId: nat,
    parent: Option<nat>,
    directReflectables: seq<nat>,
    planePolygonMapId: nat)

  /**
    Coplanarity as the plane-polygon map tests it: every normal component
    equal (value and sign) and the same plane offset.
  */
  predicate SamePlane(a: Wall, b: Wall) {
    a.n.x == b.n.x && a.n.y == b.n.y && a.n.z == b.n.z && a.d == b.d
  }

  /** The positions of the enabled walls, in list order. */
  function EnabledIndices(ws: seq<Wall>): (r: seq<nat>)
    ensures forall k :: 0 <= k < |r| ==> r[k] < |ws| && ws[r[k]].enabled
    ensures forall k, l :: 0 <= k < l < |r| ==> r[k] < r[l]
    ensures forall i :: 0 <= i < |ws| && ws[i].enabled ==> i in r
  {
    if ws == [] then []
    else
      var r0 := EnabledIndices(ws[..|ws| - 1]);
      assert forall k :: 0 <= k < |r0| ==> ws[..|ws| - 1][r0[k]] == ws[r0[k]];
      if ws[|ws| - 1].enabled then r0 + [|ws| - 1] else r0
  }

  /** The polygon the kernel is given for wall w (its id becomes the parent index). */
  function PolygonOf(w: Wall): Polygon {
    Polygon(w.corners, w.id, Plane(w.n, w.d))
  }

  /** The polygons the kernel works on: those of the enabled walls, in wall order. */
  function SpatialModel(ws: seq<Wall>): seq<Polygon> {
    seq(|EnabledIndices(ws)|, k requires 0 <= k < |EnabledIndices(ws)| => PolygonOf(ws[EnabledIndices(ws)[k]]))
  }

  /**
    construct_polygonspatial_model: one polygon per ENABLED wall, in wall
    order, carrying the wall's corners, id, normal and offset.
  */
  method ConstructPolygonSpatialModel(ws: seq<Wall>) returns (polys: seq<Polygon>)
    ensures |polys| == |EnabledIndices(ws)|
    ensures forall k :: 0 <= k < |polys| ==>
      var w := ws[EnabledIndices(ws)[k]];
      polys[k].points == w.corners && polys[k].parentId == w.id && polys[k].plane == Plane(w.n, w.d)
    ensures polys == SpatialModel(ws)
  {
    polys := [];
    var i := 0;
    while i < |ws|
      invariant 0 <= i <= |ws|
      invariant polys == SpatialModel(ws[..i])
    {
      assert ws[..i + 1][..i] == ws[..i];
      if ws[i].enabled {
        polys := polys + [PolygonOf(ws[i])];
      }
      i := i + 1;
    }
    assert ws[..|ws|] == ws;
  }

  /**
    w is an enabled wall that points back to its parent walls[w.parentId]
    and carries that parent's normal, doubled normal, offset and material.
  */
  predicate InheritsParent(walls: seq<Wall>, w: Wall) {
    && w.parentId < |walls|
    && w.enabled
    && w.n == walls[w.parentId].n
    && w.doubleN == walls[w.parentId].doubleN
    && w.d == walls[w.parentId].d
    && w.material == walls[w.parentId].material
    && w.parent == Some(w.parentId)
  }

  /**
    w is the wall construct_rtswall_model makes of polygon p: p's corners,
    the provisional id parentId * 10000 (the per-call counter is never
    incremented), and the orientation of the parent wall rather than one
    recomputed from the clipped corners. The reflectable list and cluster
    index start empty.
  */
  predicate RebuiltFrom(walls: seq<Wall>, p: Polygon, w: Wall) {
    && w.corners == p.points
    && w.parentId == p.parentId
    && w.id == p.parentId * 10000
    && InheritsParent(walls, w)
    && w.directReflectables == []
    && w.planePolygonMapId == 0
  }

  /** construct_rtswall_model: one rebuilt wall per polygon, in order. */
  method ConstructRtsWallModel(walls: seq<Wall>, polys: seq<Polygon>) returns (model: seq<Wall>)
    requires ParentsWithin(polys, |walls|)
    ensures |model| == |polys|
    ensures forall k :: 0 <= k < |polys| ==> RebuiltFrom(walls, polys[k], model[k])
  {
    model := [];
    var id := 0;
    for i := 0 to |polys|
      invariant |model| == i
      invariant forall k :: 0 <= k < i ==> RebuiltFrom(walls, polys[k], model[k])
    {
      var p := polys[i];
      var corners := p.points;
      var myId := p.parentId * 10000 + id;
      var parentWall := walls[p.parentId];
      var myWall := Wall(myId, corners, parentWall.material, true, parentWall.n, parentWall.doubleN,
                         parentWall.d, p.parentId, Some(p.parentId), [], 0);
      model := model + [myWall];
    }
  }
}
